=== FILE: README.md ===
# CodeAmigos / TeamBond back end: recommendation and account core in Dafny

This project models the logic at the centre of the CodeAmigos (TeamBond)
Spring back end and proves properties of it:

- **Event ranking.** `HackathonService.recommendHackathons` ranks the active
  hackathons for one user from that user's framework-usage statistics. It
  computes a match count and a proficiency score per event, sorts stably by
  both, and drops the events that score 0 or less.
- **Proximity filter.** `findNearbyHackathons` keeps the events with
  coordinates within a radius of a point; the overload without a radius
  uses 100 km.
- **User recommendation cascade.** `recommendUsersForHackathon` recommends
  team members for an event. It sets the creator and accepted members aside,
  then walks a chain of answers (when every user is set aside, and in the
  final last resort over all users, they can still be returned):
  - the Gemini model's reply (`parseGeminiResponse`);
  - a deterministic skill-matching fallback (`getBasicRecommendations`);
  - a last resort that returns the first usable user (`getAtLeastOneUser`).
- **Smaller service pieces.**
  - `initGemini` resolves the API key and model and masks the key.
  - `validateRequest` checks the date order.
  - `getHackathonById` reads cache-aside.
  - The post-processing in `evaluateUserWithGemini` validates a matching result.
- **User profile.** `User.evaluateProfileCompletion` recomputes the profile
  completion flag on a user object.
- **User store.** `UserService` works over the user store behind
  `UserRepository`:
  - registration and login;
  - lookup by username or display name;
  - the null-skipping profile patch with its username-conflict rule;
  - the two private-key updates.

Module layout:

| file | module | models |
|---|---|---|
| `wrappers.dfy` | `Wrappers` | `Option`, `Result`, `Outcome` |
| `java_strings.dfy` | `JavaStrings` | `toLowerCase`, `trim`, `isEmpty` after `trim`, `replaceAll` of a literal, `indexOf`, `lastIndexOf` |
| `seqs.dfy` | `Seqs` | the order-preserving stream `filter` |
| `ranking.dfy` | `Ranking` | the stable descending sort by a two-part key (`List.sort`, `Stream.sorted`) |
| `users.dfy` | `Users` | the `User` document and object, `evaluateProfileCompletion` |
| `user_service.dfy` | `UserAccounts` | the repository queries and `UserService` |
| `hackathon_model.dfy` | `Hackathons` | `Hackathon`, the framework-usage map, `ScoredHackathon`, `ScoredUser` |
| `event_ranking.dfy` | `EventRanking` | `countFrameworkMatches`, `calculateProficiencyScore`, `recommendHackathons` |
| `proximity.dfy` | `Proximity` | `findNearbyHackathons` |
| `gemini_reply.dfy` | `GeminiReply` | the reply handling of `callGeminiAPI`, `parseGeminiResponse` and `evaluateUserWithGemini` |
| `user_recommendation.dfy` | `UserRecommendation`, `UserCascade` | `getAtLeastOneUser`, `getBasicRecommendations`, `recommendUsersForHackathon` |
| `hackathon_service.dfy` | `HackathonConfig` | `initGemini`, `validateRequest`, `getHackathonById` |

How the model is organised:

- **Imperative code becomes methods.** Where the Java works step by step, the
  model does too, and each method is proved equal to a specification function
  whose properties are lemmas:
  - `User` and `UserService` are classes whose methods update fields;
  - `CalculateProficiencyScore`, `GetBasicRecommendations`,
    `GetAtLeastOneUser`, `ParseGeminiResponse` and `RecommendUsersForHackathon`
    are loops or step-by-step methods;
  - `HackathonService` holds the configuration and the cache.
- **Stream pipelines become functions.**
- **External calls are inputs.** Reads of the repositories, the framework
  statistics service, the Gemini reply and the JSON parser are inputs:
  - plain values for the lists read;
  - functions for the lookups: `statsOf` (username to usage map), `textOf`
    (reply to its text part) and `parseList` / `parseResult` (JSON text to
    objects);
  - the haversine distance is the function parameter `dist`.
- **Nullable fields and results are `Option`s.** Thrown exceptions are
  `Failure` values of a `ServiceError` datatype.

The framework-usage map is a sequence of (name, weight) entries with distinct
names. It is kept in the map's iteration order because
`getBasicRecommendations` stops at the first key whose normal form matches,
and records that key's own spelling (HackathonService.java:685-691). A missing
map and an empty map both mean "no statistics".

Where the code and its own comments differ, the model follows the code:

- **Match count.** `countFrameworkMatches` counts tech-stack entries that are
  case-sensitively equal to a usage key. The normalised count it builds is
  discarded (HackathonService.java:295-301).
- **Proficiency score.** `calculateProficiencyScore` decides a match on
  normalised names, but adds `getOrDefault(framework, 0)` for the event's raw
  spelling (HackathonService.java:338). So only entries that are keys verbatim
  contribute (`EventRanking.ScoreIsVerbatimSum`,
  `EventRanking.CaseMismatchIsDropped`).
- **The cascade can return nobody.** The comments on `getBasicRecommendations`
  and `getAtLeastOneUser` promise at least one user (HackathonService.java:638,
  798). In the code the result is empty exactly in the cases listed by
  `UserCascade.RecommendEmptyIff`. Once a user is eligible, that means the
  model's reply yields nobody and no user at all has both an id and a username
  (`UserCascade.EmptyOnlyWithoutUsableUsers`).
- **AI entries are kept as sent.** Scores are not clamped and entries with
  unknown ids stay; only names are refilled (HackathonService.java:1066-1076).
- **Eligible users are capped at 200** (HackathonService.java:485).
- **A null first user when everyone is excluded.** If every user is excluded
  and `allUsers.get(0)` is null, the code dereferences null. The outer
  `Throwable` handler then takes the last resort among the first ten users
  that are non-null and have a username (HackathonService.java:492-508,
  601-632). The model assumes the handler's second read returns the same list.
  That handler looks at the first ten named users only, so a usable user can
  be lost. Take a null first user, then ten users without an id, then a
  usable one, all named like the creator: nobody is recommended
  (`UserCascade.NullFirstHidesUsableUser`).
- **Blank API keys count as missing.** An API key of only blanks trims to ""
  and is treated like a missing key by the model calls
  (HackathonService.java:947-950, 1093-1096).
- **Authentication on a null password.** `authenticateUser` calls `equals`
  on the stored password (UserService.java:44), which throws when that
  password is null. The model returns `NullPassword` then.

The teambondbackend `User` class that `UserService` works on
(UserService.java:3) is not part of this model. The model assumes it has the
fields of the codeamigosbackend User.java, plus `encryptedRecoveryPrivateKey`
and `recoveryKeyIv`, which `UserService` sets. It also assumes the store reads
back every field, the password included, as it was saved. `Users.UserDoc` is
that document.

## Model

| member | source | states |
|---|---|---|
| JavaStrings.ToLower | src/main/java/com/spring/codeamigosbackend/hackathon/service/HackathonService.java:332 | lower-casing keeps the length and maps each character independently |
| JavaStrings.Trim | src/main/java/com/spring/codeamigosbackend/hackathon/service/HackathonService.java:89-94 | the trimmed string is never longer than the input |
| JavaStrings.TrimSpec | src/main/java/com/spring/codeamigosbackend/hackathon/service/HackathonService.java:89-94 | `trim` drops a leading run and a trailing run of characters up to `' '` and keeps the slice between them unchanged; neither end of the result is such a blank |
| JavaStrings.TrimIdempotent | src/main/java/com/spring/codeamigosbackend/hackathon/service/HackathonService.java:89-94 | trimming twice is trimming once |
| JavaStrings.BlankIffAllWhite | src/main/java/com/spring/codeamigosbackend/hackathon/service/HackathonService.java:992 | `trim().isEmpty()` holds exactly when every character is a blank |
| JavaStrings.RemoveSpaces | src/main/java/com/spring/codeamigosbackend/hackathon/service/HackathonService.java:324 | removing spaces never lengthens the string |
| JavaStrings.RemoveSpacesMembers | src/main/java/com/spring/codeamigosbackend/hackathon/service/HackathonService.java:324 | `replaceAll(" ", "")` is the in-order filter that drops spaces: no space is left, and every other character keeps its place and its count |
| JavaStrings.RemoveAll | src/main/java/com/spring/codeamigosbackend/hackathon/service/HackathonService.java:1042 | removing a literal pattern never lengthens the text, and returns the text unchanged when the pattern occurs nowhere in it (in particular when its first character does not occur) |
| JavaStrings.IndexOf | src/main/java/com/spring/codeamigosbackend/hackathon/service/HackathonService.java:1045 | -1 exactly when the character is absent, else the position of its first occurrence |
| JavaStrings.LastIndexOf | src/main/java/com/spring/codeamigosbackend/hackathon/service/HackathonService.java:1046 | -1 exactly when the character is absent, else the position of its last occurrence |
| JavaStrings.Normalize | src/main/java/com/spring/codeamigosbackend/hackathon/service/HackathonService.java:324 | the normal form of a framework name (lower case, trimmed, spaces removed) has no space and is no longer than the name |
| Seqs.FilterMembers | src/main/java/com/spring/codeamigosbackend/hackathon/service/HackathonService.java:212-220 | a stream filter keeps exactly the elements that pass, and every kept element is from the input |
| Seqs.FilterAppend | src/main/java/com/spring/codeamigosbackend/hackathon/service/HackathonService.java:212-220 | filtering distributes over concatenation, so order is preserved |
| Seqs.FilterCount | src/main/java/com/spring/codeamigosbackend/hackathon/service/HackathonService.java:277-278 | a passing element is kept as many times as it occurs; a failing one never |
| Seqs.FilterPermutation | src/main/java/com/spring/codeamigosbackend/hackathon/service/HackathonService.java:277-278 | filtering two permutations of each other gives permutations of each other |
| Ranking.InsertPermutation | src/main/java/com/spring/codeamigosbackend/hackathon/service/HackathonService.java:737-748 | inserting adds exactly the one element |
| Ranking.InsertSorted | src/main/java/com/spring/codeamigosbackend/hackathon/service/HackathonService.java:737-748 | inserting into a list sorted by key descending keeps it sorted |
| Ranking.SortSpec | src/main/java/com/spring/codeamigosbackend/hackathon/service/HackathonService.java:266-274 | the sort is ordered by key descending, is a permutation of its input, and keeps elements with equal keys in input order (stability) |
| Ranking.SortStable | src/main/java/com/spring/codeamigosbackend/hackathon/service/HackathonService.java:544-552 | for every key, the elements having it appear in the sorted list in input order |
| Ranking.SortFilterCommute | src/main/java/com/spring/codeamigosbackend/hackathon/service/HackathonService.java:262-278 | sorting then filtering equals filtering then sorting |
| Users.Evaluated | src/main/java/com/spring/codeamigosbackend/registration/model/User.java:71-81 | the flag is true exactly when the seven identity fields are non-null and non-blank; every other field is unchanged |
| Users.EvaluateIdempotent | src/main/java/com/spring/codeamigosbackend/registration/model/User.java:71-81 | evaluating twice leaves the same document as evaluating once |
| Users.BlankFieldMeansIncomplete | src/main/java/com/spring/codeamigosbackend/registration/model/User.java:73-79 | an e-mail made only of blanks makes the profile incomplete |
| Users.User.constructor | src/main/java/com/spring/codeamigosbackend/registration/model/User.java:56-58 | a new user has status "not paid", is not complete, and every other field is null or zero |
| Users.User.EvaluateProfileCompletion | src/main/java/com/spring/codeamigosbackend/registration/model/User.java:71-81 | sets the flag to the completion rule on the old fields and writes nothing else |
| Users.NewUserIsIncomplete | src/main/java/com/spring/codeamigosbackend/registration/model/User.java:56-58 | a new user, once evaluated, is still the default document with the flag false |
| UserAccounts.Matching | src/main/java/com/spring/teambondbackend/registration/repository/UserRepository.java:12-18 | the positions, ascending, of exactly the documents whose field equals the value |
| UserAccounts.FindOne | src/main/java/com/spring/teambondbackend/registration/repository/UserRepository.java:12-18 | a single-result query: nothing when no document matches, the match when exactly one does, a non-unique-result error when several do |
| UserAccounts.IdIndex | src/main/java/com/spring/teambondbackend/registration/repository/UserRepository.java:16 | `findById`: the position holding the id, `None` exactly when no document has it |
| UserAccounts.Save | src/main/java/com/spring/teambondbackend/registration/service/UserService.java:30 | `save` upserts by id: assigns a fresh id when there is none, replaces the document with the same id, else appends; ids stay unique |
| UserAccounts.Register | src/main/java/com/spring/teambondbackend/registration/service/UserService.java:25-32 | fails with "Username already exists" exactly when the username is taken, leaving the store unchanged; otherwise the returned user and the new store are exactly those of `save` |
| UserAccounts.Authenticate | src/main/java/com/spring/teambondbackend/registration/service/UserService.java:35-50 | "Invalid username." exactly when no user has the name; for a name held by one user: `NullPassword` when the stored password is null, success with that user when it equals the given one, else "Invalid password." |
| UserAccounts.UserByName | src/main/java/com/spring/teambondbackend/registration/service/UserService.java:53-57 | a user whose username or display name is the name, the username match first; "User not found: name" exactly when neither matches; a username held by one user returns that user, and without a username match a display name held by one user returns that user |
| UserAccounts.Merge | src/main/java/com/spring/teambondbackend/registration/service/UserService.java:68-115 | each of the sixteen patchable fields takes the patch value when it is non-null, else keeps the stored one; every other field keeps its stored value |
| UserAccounts.Update | src/main/java/com/spring/teambondbackend/registration/service/UserService.java:59-119 | null and no change exactly when no user has the username; a failure and no change when some user has the username and the patch's username is taken, and for a username held by one user that failure is the "Username already exists" conflict naming the patch's username; for a username held by one user and a null or free patch username, that user merged with the patch, stored in its place |
| UserAccounts.SetKey | src/main/java/com/spring/teambondbackend/registration/service/UserService.java:144-159 | "User not found" exactly when no user has the name; for a name held by one user, that user with the two key fields set replaces it and nothing else changes |
| UserAccounts.OnlyMatchIsFound | src/main/java/com/spring/teambondbackend/registration/repository/UserRepository.java:12 | a username held by one document is found at that document |
| UserAccounts.RegisterKeepsUsernamesUnique | src/main/java/com/spring/teambondbackend/registration/service/UserService.java:25-32 | registration keeps usernames unique |
| UserAccounts.RegisterThenAuthenticate | src/main/java/com/spring/teambondbackend/registration/service/UserService.java:25-50 | after a successful registration, logging in with the same name and password succeeds |
| UserAccounts.EmptyPatchChangesNothing | src/main/java/com/spring/teambondbackend/registration/service/UserService.java:68-115 | a patch with all sixteen fields null leaves the stored user unchanged |
| UserAccounts.MergeIdempotent | src/main/java/com/spring/teambondbackend/registration/service/UserService.java:68-115 | applying the same patch twice equals applying it once |
| UserAccounts.OwnUsernameConflicts | src/main/java/com/spring/teambondbackend/registration/service/UserService.java:64-67 | a patch repeating the user's own username is rejected as a conflict and nothing changes |
| UserAccounts.UpdateThenFind | src/main/java/com/spring/teambondbackend/registration/service/UserService.java:53-119 | after a successful update that renames the user, usernames stay unique and lookup by the new name returns that user |
| UserAccounts.SetKeyKeepsLogin | src/main/java/com/spring/teambondbackend/registration/service/UserService.java:144-159 | a key update never changes whether any login succeeds |
| UserAccounts.SameLoginsSameAnswer | src/main/java/com/spring/teambondbackend/registration/service/UserService.java:35-50 | login success depends only on the stored usernames and passwords |
| UserAccounts.SameNamesSameMatches | src/main/java/com/spring/teambondbackend/registration/repository/UserRepository.java:12 | username queries depend only on the stored usernames |
| UserAccounts.UserService.constructor | src/main/java/com/spring/teambondbackend/registration/repository/UserRepository.java:11 | the service starts over the given store with unique ids |
| UserAccounts.UserService.RegisterUser | src/main/java/com/spring/teambondbackend/registration/service/UserService.java:25-32 | the result and the new store are those of `Register`; the store stays well formed |
| UserAccounts.UserService.AuthenticateUser | src/main/java/com/spring/teambondbackend/registration/service/UserService.java:35-50 | the result is that of `Authenticate` on the current store |
| UserAccounts.UserService.GetUserByUsername | src/main/java/com/spring/teambondbackend/registration/service/UserService.java:53-57 | the result is that of `UserByName` on the current store |
| UserAccounts.UserService.UpdateUser | src/main/java/com/spring/teambondbackend/registration/service/UserService.java:59-119 | the result and the new store are those of `Update` |
| UserAccounts.UserService.UpdateEncryptedPrivateKey | src/main/java/com/spring/teambondbackend/registration/service/UserService.java:144-150 | the store becomes `SetKey` of the password key fields, or is unchanged with the error |
| UserAccounts.UserService.UpdateRecoveryPrivateKey | src/main/java/com/spring/teambondbackend/registration/service/UserService.java:153-159 | the store becomes `SetKey` of the recovery key fields, or is unchanged with the error |
| Hackathons.Lookup | src/main/java/com/spring/codeamigosbackend/hackathon/service/HackathonService.java:690 | `Map.get`: `None` exactly when the key is absent, else that key's weight |
| Hackathons.GetOrDefault | src/main/java/com/spring/codeamigosbackend/hackathon/service/HackathonService.java:338 | `getOrDefault`: the key's weight when present, the default when absent |
| Hackathons.KeyHasOneWeight | src/main/java/com/spring/codeamigosbackend/hackathon/service/HackathonService.java:338 | a key of the usage map has a single weight |
| Hackathons.ShownName | src/main/java/com/spring/codeamigosbackend/hackathon/service/HackathonService.java:713 | the display name when present, else the username |
| EventRanking.MatchCount | src/main/java/com/spring/codeamigosbackend/hackathon/service/HackathonService.java:289-302 | 0 for a null tech stack, and never more than the number of tech-stack entries |
| EventRanking.MatchCountSpec | src/main/java/com/spring/codeamigosbackend/hackathon/service/HackathonService.java:289-302 | the match count adds up over concatenated tech stacks, and one entry counts 1 exactly when it is a usage key verbatim |
| EventRanking.ScoreSumStep | src/main/java/com/spring/codeamigosbackend/hackathon/service/HackathonService.java:330-344 | one more entry adds exactly its contribution to the running total |
| EventRanking.ContributionIsVerbatim | src/main/java/com/spring/codeamigosbackend/hackathon/service/HackathonService.java:330-344 | an entry contributes its verbatim weight: normalised matching decides nothing |
| EventRanking.ScoreIsVerbatimSum | src/main/java/com/spring/codeamigosbackend/hackathon/service/HackathonService.java:312-347 | the proficiency score is the sum, duplicates included, of the entries' verbatim weights |
| EventRanking.NoVerbatimKeyScoresZero | src/main/java/com/spring/codeamigosbackend/hackathon/service/HackathonService.java:289-347 | with no entry that is a key verbatim, both the match count and the score are 0 |
| EventRanking.ProficiencyScore | src/main/java/com/spring/codeamigosbackend/hackathon/service/HackathonService.java:312-347 | 0 for a null tech stack, else the sum of the entries' verbatim weights |
| EventRanking.CalculateProficiencyScore | src/main/java/com/spring/codeamigosbackend/hackathon/service/HackathonService.java:312-347 | the nested loops compute the proficiency score |
| EventRanking.Scored | src/main/java/com/spring/codeamigosbackend/hackathon/service/HackathonService.java:260-265 | a scored entry carries the event, its match count and its proficiency score |
| EventRanking.ScoreAll | src/main/java/com/spring/codeamigosbackend/hackathon/service/HackathonService.java:260-265 | every active event is scored, in input order |
| EventRanking.RankKeyOrder | src/main/java/com/spring/codeamigosbackend/hackathon/service/HackathonService.java:266-274 | one event comes before another exactly when it has more matches, or as many and a higher proficiency score |
| EventRanking.RecommendHackathons | src/main/java/com/spring/codeamigosbackend/hackathon/service/HackathonService.java:239-242 | empty when the statistics or their usage map are missing or empty; never longer than the active list |
| EventRanking.RecommendHackathonsSpec | src/main/java/com/spring/codeamigosbackend/hackathon/service/HackathonService.java:235-279 | with statistics, the result is exactly the positively scored events, ordered by match count then score descending, with equal keys in input order |
| EventRanking.CaseMismatchIsDropped | src/main/java/com/spring/codeamigosbackend/hackathon/service/HackathonService.java:295-301 | an event listing "React" gets no match, no score and no place for a user whose key is "react" |
| Proximity.Near | src/main/java/com/spring/codeamigosbackend/hackathon/service/HackathonService.java:213-220 | an event passes only when it has both coordinates |
| Proximity.FindNearbyHackathons | src/main/java/com/spring/codeamigosbackend/hackathon/service/HackathonService.java:210-221 | the result is never longer than the active list |
| Proximity.FindNearbyDefault | src/main/java/com/spring/codeamigosbackend/hackathon/service/HackathonService.java:204-206 | the overload without a radius uses 100 km |
| Proximity.NearbyMembers | src/main/java/com/spring/codeamigosbackend/hackathon/service/HackathonService.java:210-221 | an event is in the result exactly when it is active, has both coordinates and is within the radius |
| Proximity.NearbyAppend | src/main/java/com/spring/codeamigosbackend/hackathon/service/HackathonService.java:210-221 | the filter works event by event, so input order is kept |
| Proximity.NoCoordinatesNeverNear | src/main/java/com/spring/codeamigosbackend/hackathon/service/HackathonService.java:215-216 | an event without latitude or longitude is never returned |
| Proximity.SmallerRadius | src/main/java/com/spring/codeamigosbackend/hackathon/service/HackathonService.java:210-221 | the events within a smaller radius are those within a larger one filtered again by the smaller one |
| GeminiReply.CallGemini | src/main/java/com/spring/codeamigosbackend/hackathon/service/HackathonService.java:946-984 | "[]" without a key or reply body, else the reply body |
| GeminiReply.CleanReplyText | src/main/java/com/spring/codeamigosbackend/hackathon/service/HackathonService.java:1042 | the cleaned text is no longer than the reply, neither starts nor ends with a blank, and contains no three-backtick fence anywhere |
| GeminiReply.NoFenceLeft | src/main/java/com/spring/codeamigosbackend/hackathon/service/HackathonService.java:1042 | removing every "```" leaves no three-backtick fence, even where removal joins backticks from both sides |
| GeminiReply.CleanPlainText | src/main/java/com/spring/codeamigosbackend/hackathon/service/HackathonService.java:1042 | a reply without backquotes is only trimmed |
| GeminiReply.Between | src/main/java/com/spring/codeamigosbackend/hackathon/service/HackathonService.java:1045-1049 | present exactly when the last closing bracket follows the first opening one; then the slice from the first opening to the last closing bracket |
| GeminiReply.ExtractArrayText | src/main/java/com/spring/codeamigosbackend/hackathon/service/HackathonService.java:1042-1052 | none exactly when there is no '['; the bracketed slice when there is one; the whole text otherwise |
| GeminiReply.ParsedReply | src/main/java/com/spring/codeamigosbackend/hackathon/service/HackathonService.java:992-995 | a null or blank reply, or exactly "[]", yields nobody; when the reply's text, cleaned and cut at its outermost brackets, parses to a list, that list is the result; a non-empty result is always such a parsed list |
| GeminiReply.NoKeyNoUsers | src/main/java/com/spring/codeamigosbackend/hackathon/service/HackathonService.java:947-950 | without an API key the reply yields nobody |
| GeminiReply.NoBracketNoUsers | src/main/java/com/spring/codeamigosbackend/hackathon/service/HackathonService.java:1039-1049 | a reply text without '[' yields nobody |
| GeminiReply.RemoveAllKeepsOut | src/main/java/com/spring/codeamigosbackend/hackathon/service/HackathonService.java:1042 | removing a pattern introduces no new character |
| GeminiReply.TrimKeepsOut | src/main/java/com/spring/codeamigosbackend/hackathon/service/HackathonService.java:1042 | trimming introduces no new character |
| GeminiReply.UserWithId | src/main/java/com/spring/codeamigosbackend/hackathon/service/HackathonService.java:1062-1064 | a non-null user with that id from the list, namely the first such one; `None` exactly when there is none |
| GeminiReply.Refill | src/main/java/com/spring/codeamigosbackend/hackathon/service/HackathonService.java:1068-1074 | refilling changes at most the name; an entry whose id is a known user's gets that user's shown name; one without an id or with an unknown id is unchanged |
| GeminiReply.Refilled | src/main/java/com/spring/codeamigosbackend/hackathon/service/HackathonService.java:1066-1076 | each parsed entry refilled, in order |
| GeminiReply.RefilledKeepsEntries | src/main/java/com/spring/codeamigosbackend/hackathon/service/HackathonService.java:1066-1076 | ids, scores and skills are kept as sent; an entry with an unknown id is unchanged; a known id gets that user's shown name |
| GeminiReply.ParseGeminiResponse | src/main/java/com/spring/codeamigosbackend/hackathon/service/HackathonService.java:989-1087 | the method's result is the refilled parse of the reply |
| GeminiReply.NormalizeMatching | src/main/java/com/spring/codeamigosbackend/hackathon/service/HackathonService.java:1133-1144 | the score is kept when in [0, 100], else becomes 50; the level and the reason are kept when non-empty, else "Intermediate" and "Matched based on tech stack" |
| GeminiReply.NormalizeMatchingIdempotent | src/main/java/com/spring/codeamigosbackend/hackathon/service/HackathonService.java:1133-1144 | validating twice equals validating once |
| GeminiReply.ExtractObjectText | src/main/java/com/spring/codeamigosbackend/hackathon/service/HackathonService.java:1123-1127 | the slice from the first '{' to the last '}' when that follows it, else the whole text |
| GeminiReply.EvaluateUser | src/main/java/com/spring/codeamigosbackend/hackathon/service/HackathonService.java:1092-1155 | nothing without a key or with an empty reply; otherwise the parse of the cleaned reply cut at its outermost braces, with an out-of-range score replaced by 50 and a null or empty level or reason given its default, or nothing when it does not parse |
| UserRecommendation.LastResort | src/main/java/com/spring/codeamigosbackend/hackathon/service/HackathonService.java:800-835 | at most one user; someone exactly when some user is non-null with an id and a username; then the first such user at score 10 with no skills |
| UserRecommendation.GetAtLeastOneUser | src/main/java/com/spring/codeamigosbackend/hackathon/service/HackathonService.java:800-835 | the first-match loop computes the last resort |
| UserRecommendation.NormalizedNames | src/main/java/com/spring/codeamigosbackend/hackathon/service/HackathonService.java:685-687 | each key lower-cased, trimmed and stripped of spaces, in map order |
| UserRecommendation.FirstIndex | src/main/java/com/spring/codeamigosbackend/hackathon/service/HackathonService.java:685-692 | -1 exactly when absent, else the first position |
| UserRecommendation.FirstMatch | src/main/java/com/spring/codeamigosbackend/hackathon/service/HackathonService.java:685-692 | -1 exactly when no key has the tech-stack entry's normal form; otherwise the first key in map order that has it |
| UserRecommendation.MatchedEntries | src/main/java/com/spring/codeamigosbackend/hackathon/service/HackathonService.java:683-693 | at most one entry per tech-stack entry, each an entry of the user's map |
| UserRecommendation.MatchedEntriesSpec | src/main/java/com/spring/codeamigosbackend/hackathon/service/HackathonService.java:683-693 | one matched key per tech-stack entry whose normal form is some key's, each a map entry with the normal form of a tech-stack entry |
| UserRecommendation.MatchedEntriesAppend | src/main/java/com/spring/codeamigosbackend/hackathon/service/HackathonService.java:683-693 | matching works entry by entry: the matches of concatenated tech stacks are the matches of each part, in tech-stack order |
| UserRecommendation.MatchedEntriesSingle | src/main/java/com/spring/codeamigosbackend/hackathon/service/HackathonService.java:683-693 | one tech-stack entry matches the first key with its normal form, or nothing |
| UserRecommendation.FindKey | src/main/java/com/spring/codeamigosbackend/hackathon/service/HackathonService.java:685-692 | the inner loop finds the first key with the normal form, or -1 |
| UserRecommendation.MatchSkills | src/main/java/com/spring/codeamigosbackend/hackathon/service/HackathonService.java:683-693 | the loops collect the matched keys' spellings and the sum of their weights |
| UserRecommendation.Normalized | src/main/java/com/spring/codeamigosbackend/hackathon/service/HackathonService.java:709 | at most 100, positive for a positive raw score, raw/10 up to 1000, and exactly 100 from 1000 up |
| UserRecommendation.Assess | src/main/java/com/spring/codeamigosbackend/hackathon/service/HackathonService.java:666-729 | a user lacking an id or a username is skipped; a recommended user keeps its id and shown name and has a score in (0, 100] and some matched skill; a backup is the user at score 10 with no skills |
| UserRecommendation.AssessSpec | src/main/java/com/spring/codeamigosbackend/hackathon/service/HackathonService.java:666-729 | a usable user without statistics is a backup at score 10; with statistics, it is recommended with the normalised weight sum and the matched keys' names exactly when some key matches and the weights sum above 0, else dropped |
| UserRecommendation.Recommendations | src/main/java/com/spring/codeamigosbackend/hackathon/service/HackathonService.java:706-717 | every kept user has a score in (0, 100], some skill, and is a usable user of the list |
| UserRecommendation.Backups | src/main/java/com/spring/codeamigosbackend/hackathon/service/HackathonService.java:718-727 | every backup has score 10, no skills, and is a usable user of the list |
| UserRecommendation.RecommendationsAppend | src/main/java/com/spring/codeamigosbackend/hackathon/service/HackathonService.java:664-731 | the recommendation list is built user by user, in user order |
| UserRecommendation.BackupsAppend | src/main/java/com/spring/codeamigosbackend/hackathon/service/HackathonService.java:664-731 | the backup list is built user by user, in user order |
| UserRecommendation.VerdictListsSingle | src/main/java/com/spring/codeamigosbackend/hackathon/service/HackathonService.java:664-731 | one user adds its verdict's entry to the recommendation list or to the backup list, or to neither |
| UserRecommendation.UserKeyOrder | src/main/java/com/spring/codeamigosbackend/hackathon/service/HackathonService.java:540-552 | one user comes before another exactly when it has a higher score, or the same score and more matched skills |
| UserRecommendation.BasicNonEmptyIff | src/main/java/com/spring/codeamigosbackend/hackathon/service/HackathonService.java:640-794 | the fallback returns someone exactly when some user has an id and a username |
| UserRecommendation.BasicSortedAndBounded | src/main/java/com/spring/codeamigosbackend/hackathon/service/HackathonService.java:737-773 | the fallback's result is sorted by score then skill count, scores lie in (0, 100], and every user is a usable user of the list |
| UserRecommendation.BasicRecommendations | src/main/java/com/spring/codeamigosbackend/hackathon/service/HackathonService.java:640-794 | never more users than the input |
| UserRecommendation.BasicSpec | src/main/java/com/spring/codeamigosbackend/hackathon/service/HackathonService.java:640-794 | without tech stack, the last resort; else the recommendations sorted stably by score then skill count when there are any, else the first backup, else the last resort |
| UserRecommendation.GetBasicRecommendations | src/main/java/com/spring/codeamigosbackend/hackathon/service/HackathonService.java:640-794 | the loop, sort and fallbacks compute the fallback recommendation |
| UserCascade.Take | src/main/java/com/spring/codeamigosbackend/hackathon/service/HackathonService.java:485 | `limit(n)`: a prefix of at most n elements, the whole list when it is short enough |
| UserCascade.Excluded | src/main/java/com/spring/codeamigosbackend/hackathon/service/HackathonService.java:466-477 | exactly the creator and the accepted users |
| UserCascade.Eligible | src/main/java/com/spring/codeamigosbackend/hackathon/service/HackathonService.java:481-486 | at most 200 users, and never more than the full list |
| UserCascade.EligibleMembers | src/main/java/com/spring/codeamigosbackend/hackathon/service/HackathonService.java:481-486 | each eligible user is from the full list, non-null, named, and not excluded |
| UserCascade.EligibleIdOf | src/main/java/com/spring/codeamigosbackend/hackathon/service/HackathonService.java:481-486 | a usable eligible user is a usable, non-excluded user of the full list |
| UserCascade.ErrorRecovery | src/main/java/com/spring/codeamigosbackend/hackathon/service/HackathonService.java:601-632 | at most one user; someone exactly when one of the first ten named users is usable, and then the last resort among those ten |
| UserCascade.FallbackSkipsExcluded | src/main/java/com/spring/codeamigosbackend/hackathon/service/HackathonService.java:562-576 | when the model yields nobody and some eligible user is usable, the result is non-empty and names only usable, non-excluded users |
| UserCascade.UsableInSublist | src/main/java/com/spring/codeamigosbackend/hackathon/service/HackathonService.java:579-597 | a usable user of a sub-list is a usable user of the list |
| UserCascade.EmptyOnlyWithoutUsableUsers | src/main/java/com/spring/codeamigosbackend/hackathon/service/HackathonService.java:512-597 | once some user is eligible, the result is empty exactly when the model yields nobody and no user has both an id and a username |
| UserCascade.AllExcludedReturnsFirst | src/main/java/com/spring/codeamigosbackend/hackathon/service/HackathonService.java:492-508 | when every user is excluded and the first is non-null, it alone is returned, at score 5 with no skills |
| UserCascade.ErrorRecoveryBranch | src/main/java/com/spring/codeamigosbackend/hackathon/service/HackathonService.java:601-632 | when every user is excluded and the first one is null, `firstUser.getId()` (line 498) throws and the result is the error handler's last resort among the first ten named users |
| UserCascade.FallbackIsBasic | src/main/java/com/spring/codeamigosbackend/hackathon/service/HackathonService.java:561-577 | when someone is eligible, the model names nobody and the fallback finds someone, the fallback's list is the result |
| UserCascade.LastResortBranch | src/main/java/com/spring/codeamigosbackend/hackathon/service/HackathonService.java:579-598 | when someone is eligible but neither the model nor the fallback names anyone, the result is the last resort over all users, excluded ones included |
| UserCascade.LastResortMayPickCreator | src/main/java/com/spring/codeamigosbackend/hackathon/service/HackathonService.java:586-590 | the last resort can return the event's creator, when the only other user has no id |
| UserCascade.RecommendSorted | src/main/java/com/spring/codeamigosbackend/hackathon/service/HackathonService.java:540-597 | whichever path produced it, the result is ordered by score then skill count |
| UserCascade.RecommendUsers | src/main/java/com/spring/codeamigosbackend/hackathon/service/HackathonService.java:432-633 | nobody without an event or without users; when every user is excluded and the first is non-null, that user alone at score 5 |
| UserCascade.RecommendEmptyIff | src/main/java/com/spring/codeamigosbackend/hackathon/service/HackathonService.java:432-633 | the result is empty exactly when the event or the users are missing, or everyone is excluded, the first user is null and none of the first ten named users is usable, or someone is eligible but the model yields nobody and no user is usable |
| UserCascade.AiReplyIsUsed | src/main/java/com/spring/codeamigosbackend/hackathon/service/HackathonService.java:512-552 | when someone is eligible and the model names someone, the result is the refilled model list sorted stably by score then skill count |
| UserCascade.NullFirstHidesUsableUser | src/main/java/com/spring/codeamigosbackend/hackathon/service/HackathonService.java:492-632 | with a null first user, ten users without an id and then a usable one, all excluded, nobody is recommended although a usable user exists |
| UserCascade.RecommendUsersForHackathon | src/main/java/com/spring/codeamigosbackend/hackathon/service/HackathonService.java:432-633 | the method computes the cascade |
| HackathonConfig.ResolveKey | src/main/java/com/spring/codeamigosbackend/hackathon/service/HackathonService.java:82-94 | absent exactly when both the value `dotenv.get` returns is null or empty and the environment value is null; otherwise the trimmed `dotenv.get` value, or the trimmed environment value when that one is null or empty |
| HackathonConfig.DefaultModelTrimmed | src/main/java/com/spring/codeamigosbackend/hackathon/service/HackathonService.java:97 | the default model name has no surrounding blanks |
| HackathonConfig.ResolveModel | src/main/java/com/spring/codeamigosbackend/hackathon/service/HackathonService.java:82-97 | the resolved model value when it is present and non-empty, else "gemini-2.5-flash"; never empty and without surrounding blanks |
| HackathonConfig.MaskKey | src/main/java/com/spring/codeamigosbackend/hackathon/service/HackathonService.java:99-101 | "NULL" without a key, the first five characters and "..." for a longer key, "***" otherwise |
| HackathonConfig.MaskShowsOnlyPrefix | src/main/java/com/spring/codeamigosbackend/hackathon/service/HackathonService.java:99-101 | keys agreeing on their first five characters mask alike, and a key longer than eight is never logged whole |
| HackathonConfig.ValidateRequest | src/main/java/com/spring/codeamigosbackend/hackathon/service/HackathonService.java:172-176 | fails, with the date-order message, exactly when the end is before the start |
| HackathonConfig.CacheAside | src/main/java/com/spring/codeamigosbackend/hackathon/service/HackathonService.java:178-192 | a cached id answers the cached event; otherwise a stored id answers the stored event and adds it to the cache; not found exactly when the id is neither cached nor stored; cached entries are never changed |
| HackathonConfig.CacheAsideAgreesWithStore | src/main/java/com/spring/codeamigosbackend/hackathon/service/HackathonService.java:178-192 | with a cache that agrees with the store, the answer is the store's and the cache keeps agreeing |
| HackathonConfig.CacheAsideRepeat | src/main/java/com/spring/codeamigosbackend/hackathon/service/HackathonService.java:178-192 | a second lookup of a found id gives the same answer and leaves the cache as it is |
| HackathonConfig.HackathonService.constructor | src/main/java/com/spring/codeamigosbackend/hackathon/service/HackathonService.java:64-104 | the service starts with no key, no model and an empty cache |
| HackathonConfig.HackathonService.InitGemini | src/main/java/com/spring/codeamigosbackend/hackathon/service/HackathonService.java:64-104 | sets the key and the model to their resolved values and returns the masked key |
| HackathonConfig.HackathonService.GetHackathonById | src/main/java/com/spring/codeamigosbackend/hackathon/service/HackathonService.java:178-192 | the answer and the new cache are those of the cache-aside lookup |

## Left out

- **Haversine distance.** It is floating-point trigonometry
  (HackathonService.java:224-233), so it is the parameter `dist`.
- **Gemini call and JSON.** The HTTP call, the GenAI SDK calls and JSON
  (de)serialisation are inputs: the reply text, `textOf`, `parseList` and
  `parseResult`.
- **Prompt building.** `buildGeminiPrompt` and the evaluation prompt only
  format text.
- **Active-event queries.** The date-window repository queries depend on the
  clock, so the active-event list is an input. `createHackathon` (geocoding,
  Cloudinary upload) and the controllers are not part of this model.
- **Redis.** Expiry times and the `objectMapper` conversion of cached values
  are left out; the cache is a map.
- **The `.env` file.** A file that fails to load is modelled as a missing
  value. `fromFile` is whatever `dotenv.get` returns; how that library itself
  orders the `.env` file against the process environment is not modelled.
- **Null coordinates and radius.** `findNearbyHackathons` takes boxed
  `Double` arguments; a null latitude, longitude or radius throws in the
  source as soon as an event has coordinates (HackathonService.java:218).
  The model takes them as numbers and does not model that exception.
- **Java's string and number semantics.**
  - `toLowerCase` is modelled for ASCII letters only.
  - `double` arithmetic is exact real arithmetic.
- **Null elements and weights.** Null tech-stack entries, null usage-map
  names and weights, and a null `registrationDates` are not modelled.
  - In event ranking the resulting exception propagates out of
    `recommendHackathons`.
  - In `getBasicRecommendations` it is caught by the statistics `catch`
    (HackathonService.java:704-707). A null weight fails at `score +=`
    (HackathonService.java:690) after `matchedSkills.add` (line 689), so the
    user is kept with the skills and score matched so far, or becomes a
    backup; the loop carries on.
- **Null entries in the model's list.** A null element of the parsed list is
  skipped by the name refill (HackathonService.java:1070). With two or more
  elements, the sort's `b.getScore()` (HackathonService.java:546) then throws,
  and the `Throwable` handler (HackathonService.java:601) takes over. Parsed
  elements are taken as non-null. A null `matchedSkills` from the reply is
  modelled as the empty list; Java returns it as null, and only the
  comparators treat the two alike.
- **Repository failures.** No failure other than a non-unique result is
  modelled.
- **Unreachable exception handlers.**
  - The `catch` branches that fall back to `getBasicRecommendations` inside
    the AI step (HackathonService.java:512-532) are not modelled, because the
    called methods catch their own exceptions.
  - The per-user `catch (Exception)` inside the fallback loop is not
    modelled.
- **Sorting in place.** The in-place `List.sort` is modelled on values, by a
  stable insertion sort on the sequence.
- UserRecommendation.Stats: the statistics service yields an ordered list of
  entries rather than a `map<string, int>`, because the fallback depends on
  the map's iteration order.
- UserAccounts.Authenticate: a null stored password gives the `NullPassword`
  error where Java throws on the null dereference.
- JavaStrings.Trim: the function's own contract states only the length bound;
  what is dropped and kept is in `JavaStrings.TrimSpec`.
- JavaStrings.RemoveSpaces: the function's own contract states only the length
  bound; the exact result is in `JavaStrings.RemoveSpacesMembers`.
- JavaStrings.Normalize: the contract does not say which characters are kept;
  that follows from `ToLower`, `TrimSpec` and `RemoveSpacesMembers`.
- Proximity.Near: the test's own contract states only that events without
  coordinates fail; the distance condition is in `Proximity.NearbyMembers`.
- UserRecommendation.BasicRecommendations: the function's own contract states
  only the length bound; the full result is in `UserRecommendation.BasicSpec`.
- UserCascade.Eligible: the function's own contract states only the bounds;
  membership is in `UserCascade.EligibleMembers`.
- UserCascade.RecommendUsers: the function's own contract states only the
  first two branches; each later branch has its own lemma:
  `UserCascade.ErrorRecoveryBranch` (every user excluded, the first null),
  `UserCascade.AiReplyIsUsed` (the model's reply), `UserCascade.FallbackIsBasic`
  (the fallback) and `UserCascade.LastResortBranch` (the last resort over all
  users). `UserCascade.RecommendEmptyIff`, `UserCascade.FallbackSkipsExcluded`
  and `UserCascade.RecommendSorted` state what holds across branches.
- Proximity.FindNearbyHackathons: the function's own contract states only the
  length bound; the exact contents and order are in `Proximity.NearbyMembers`
  and `Proximity.NearbyAppend`.
- EventRanking.RecommendHackathons: the function's own contract states only
  the empty cases and the length bound; the full result is in
  `EventRanking.RecommendHackathonsSpec`.
- EventRanking.MatchCount: the function's own contract states only the
  bounds; how the count is built per entry is in `EventRanking.MatchCountSpec`.
- UserRecommendation.MatchedEntries: the function's own contract states only
  the bounds and membership; the exact matches are in
  `UserRecommendation.MatchedEntriesSpec`, `UserRecommendation.MatchedEntriesAppend`
  and `UserRecommendation.MatchedEntriesSingle`.
- UserRecommendation.Assess: the function's own contract states only the
  shape of each verdict; when a user is recommended, a backup or dropped, and
  with which score and skills, is in `UserRecommendation.AssessSpec`.
- UserRecommendation.Recommendations: the function's own contract states only
  what holds for each kept user; which users are kept, in what order, is in
  `UserRecommendation.RecommendationsAppend` and
  `UserRecommendation.VerdictListsSingle`.
- UserRecommendation.Backups: the function's own contract states only what
  holds for each backup; which users are backups, in what order, is in
  `UserRecommendation.BackupsAppend` and `UserRecommendation.VerdictListsSingle`.

=== FILE: event_ranking.dfy ===
/**
 * Event ranking for one user: `recommendHackathons`, `countFrameworkMatches`
 * and `calculateProficiencyScore` of HackathonService.
 *
 * An event's match count counts the tech-stack entries that are keys of the
 * user's usage map exactly (case-sensitively). Its proficiency score tests
 * membership on normalised names (lower-cased, trimmed, spaces removed) but
 * adds the weight stored under the entry's own spelling, so an entry that
 * matches only after normalisation adds 0.
 */
module EventRanking {
  import opened Wrappers
  import opened JavaStrings
  import opened Seqs
  import opened Ranking
  import opened Hackathons

  /** `normalizedUserFrameworks::contains` on the raw keys. */
  function IsKeyOf(u: Usage): string -> bool
  {
    t => t in Keys(u)
  }

  /** `countFrameworkMatches`: tech-stack entries (duplicates included) that are keys verbatim. */
  function MatchCount(techs: Option<seq<string>>, u: Usage): (n: nat)
    ensures techs.None? ==> n == 0
    ensures techs.Some? ==> n <= |techs.value|
  {
    if techs.None? || techs.value == [] then 0
    else |Filter(techs.value, IsKeyOf(u))|
  }

  /**
   * The match count is additive over the tech stack, and one entry counts 1
   * exactly when it is a key verbatim: the count is the number of entries,
   * duplicates included, that are keys as spelt.
   */
  lemma MatchCountSpec(a: seq<string>, b: seq<string>, t: string, u: Usage)
    ensures MatchCount(Some(a + b), u) == MatchCount(Some(a), u) + MatchCount(Some(b), u)
    ensures MatchCount(Some([t]), u) == if t in Keys(u) then 1 else 0
  {
    FilterAppend(a, b, IsKeyOf(u));
    assert [t][1..] == [];
  }

  /** The set `userFrameworksLower`. */
  function NormalizedKeys(u: Usage): set<string>
  {
    set k | k in Keys(u) :: Normalize(k)
  }

  /** What one tech-stack entry adds to the proficiency score. */
  function Contribution(t: string, u: Usage): int
  {
    if Normalize(t) in NormalizedKeys(u) then GetOrDefault(u, t, 0) else 0
  }

  /** The running total after the first `|techs|` entries. */
  function ScoreSum(techs: seq<string>, u: Usage): int
  {
    if techs == [] then 0
    else ScoreSum(techs[..|techs| - 1], u) + Contribution(techs[|techs| - 1], u)
  }

  lemma ScoreSumStep(techs: seq<string>, i: nat, u: Usage)
    requires i < |techs|
    ensures ScoreSum(techs[..i + 1], u) == ScoreSum(techs[..i], u) + Contribution(techs[i], u)
  {
    assert techs[..i + 1][..i] == techs[..i];
  }

  /**
   * `calculateProficiencyScore`: 0 without a tech stack, else the sum over
   * its entries (duplicates included) of each entry's verbatim weight.
   */
  function ProficiencyScore(techs: Option<seq<string>>, u: Usage): (r: int)
    ensures techs.None? ==> r == 0
    ensures techs.Some? ==> r == VerbatimSum(techs.value, u)
  {
    if techs.None? || techs.value == [] then 0
    else
      ScoreIsVerbatimSum(techs.value, u);
      ScoreSum(techs.value, u)
  }

  /** The weight an entry has when looked up verbatim. */
  function VerbatimWeight(t: string, u: Usage): int
  {
    if t in Keys(u) then GetOrDefault(u, t, 0) else 0
  }

  /** The sum of the verbatim weights. */
  function VerbatimSum(techs: seq<string>, u: Usage): int
  {
    if techs == [] then 0 else VerbatimWeight(techs[0], u) + VerbatimSum(techs[1..], u)
  }

  /** Normalised matching decides nothing: each entry adds its verbatim weight. */
  lemma ContributionIsVerbatim(t: string, u: Usage)
    ensures Contribution(t, u) == VerbatimWeight(t, u)
  {
    if t in Keys(u) {
      assert Normalize(t) in NormalizedKeys(u);
    }
  }

  lemma {:induction false} VerbatimSumAppend(a: seq<string>, t: string, u: Usage)
    ensures VerbatimSum(a + [t], u) == VerbatimSum(a, u) + VerbatimWeight(t, u)
  {
    if a != [] {
      assert (a + [t])[1..] == a[1..] + [t];
      VerbatimSumAppend(a[1..], t, u);
    }
  }

  /** The proficiency score is the sum of the entries' verbatim weights. */
  lemma {:induction false} ScoreIsVerbatimSum(techs: seq<string>, u: Usage)
    ensures ScoreSum(techs, u) == VerbatimSum(techs, u)
  {
    if techs != [] {
      var init, last := techs[..|techs| - 1], techs[|techs| - 1];
      ScoreIsVerbatimSum(init, u);
      ContributionIsVerbatim(last, u);
      VerbatimSumAppend(init, last, u);
      assert init + [last] == techs;
    }
  }

  lemma {:induction false} NoVerbatimKey(techs: seq<string>, u: Usage)
    requires forall i :: 0 <= i < |techs| ==> techs[i] !in Keys(u)
    ensures VerbatimSum(techs, u) == 0 && Filter(techs, IsKeyOf(u)) == []
  {
    if techs != [] {
      NoVerbatimKey(techs[1..], u);
    }
  }

  /** With no entry that is a key verbatim, both numbers are 0, whatever normalisation would match. */
  lemma NoVerbatimKeyScoresZero(techs: seq<string>, u: Usage)
    requires forall i :: 0 <= i < |techs| ==> techs[i] !in Keys(u)
    ensures ProficiencyScore(Some(techs), u) == 0
    ensures MatchCount(Some(techs), u) == 0
  {
    ScoreIsVerbatimSum(techs, u);
    NoVerbatimKey(techs, u);
  }

  /**
   * `calculateProficiencyScore`: for each entry, scan the normalised keys
   * and add the entry's verbatim weight on the first equal one.
   */
  method CalculateProficiencyScore(h: Hackathon, u: Usage) returns (total: int)
    ensures total == ProficiencyScore(h.techStacks, u)
  {
    if h.techStacks.None? || h.techStacks.value == [] {
      return 0;
    }
    var techs := h.techStacks.value;
    var lowerKeys := NormalizedKeys(u);
    total := 0;
    for i := 0 to |techs|
      invariant total == ScoreSum(techs[..i], u)
    {
      var framework := techs[i];
      var lower := Normalize(framework);
      var rest := lowerKeys;
      var matched := false;
      ghost var before := total;
      while rest != {} && !matched
        invariant rest <= lowerKeys
        invariant matched ==> lower in lowerKeys
        invariant !matched ==> (lower in lowerKeys <==> lower in rest)
        invariant total == before + (if matched then GetOrDefault(u, framework, 0) else 0)
        decreases rest, !matched
      {
        var candidate :| candidate in rest;
        if candidate == lower {
          total := total + GetOrDefault(u, framework, 0);
          matched := true;
        }
        rest := rest - {candidate};
      }
      assert total == before + Contribution(framework, u);
      ScoreSumStep(techs, i, u);
    }
    assert techs[..|techs|] == techs;
  }

  /** The sort key: match count first, proficiency score second. */
  function RankKey(s: ScoredHackathon): Key
  {
    (s.matchCount as real, s.proficiencyScore as real)
  }

  /** The comparator: more matches first, then the higher proficiency score. */
  lemma RankKeyOrder(a: ScoredHackathon, b: ScoredHackathon)
    ensures Outranks(RankKey(a), RankKey(b)) <==>
            a.matchCount > b.matchCount ||
            (a.matchCount == b.matchCount && a.proficiencyScore > b.proficiencyScore)
  {
  }

  /** An event with its two numbers. */
  function Scored(h: Hackathon, u: Usage): (s: ScoredHackathon)
    ensures s.hackathon == h
    ensures s.matchCount == MatchCount(h.techStacks, u)
    ensures s.proficiencyScore == ProficiencyScore(h.techStacks, u)
  {
    ScoredHackathon(h, MatchCount(h.techStacks, u), ProficiencyScore(h.techStacks, u))
  }

  /** Every active event scored, in input order. */
  function ScoreAll(active: seq<Hackathon>, u: Usage): (r: seq<ScoredHackathon>)
    ensures |r| == |active| && forall i :: 0 <= i < |r| ==> r[i] == Scored(active[i], u)
  {
    seq(|active|, i requires 0 <= i < |active| => Scored(active[i], u))
  }

  predicate PositiveScore(s: ScoredHackathon)
  {
    s.proficiencyScore > 0
  }

  /**
   * `recommendHackathons`, given the user's usage map (`None` when the
   * statistics or their map are null) and the active events: score, sort
   * stably by key descending, drop the events that score 0 or less.
   */
  function RecommendHackathons(stats: Option<Usage>, active: seq<Hackathon>): (r: seq<ScoredHackathon>)
    ensures stats.None? || stats.value == [] ==> r == []
    ensures |r| <= |active|
  {
    if stats.None? || stats.value == [] then []
    else
      SortPermutation(RankKey, ScoreAll(active, stats.value));
      Filter(SortDesc(RankKey, ScoreAll(active, stats.value)), PositiveScore)
  }

  /**
   * With statistics, the result is exactly the positively scored events,
   * ordered by key descending, events with equal keys in input order.
   */
  lemma {:induction false} RecommendHackathonsSpec(u: Usage, active: seq<Hackathon>)
    requires u != []
    ensures var r := RecommendHackathons(Some(u), active);
            var kept := Filter(ScoreAll(active, u), PositiveScore);
            && SortedDesc(RankKey, r)
            && multiset(r) == multiset(kept)
            && (forall k :: WithKey(RankKey, r, k) == WithKey(RankKey, kept, k))
            && (forall s :: s in r <==> s in ScoreAll(active, u) && s.proficiencyScore > 0)
  {
    var all := ScoreAll(active, u);
    var kept := Filter(all, PositiveScore);
    SortFilterCommute(RankKey, all, PositiveScore);
    SortSpec(RankKey, kept);
    var r := RecommendHackathons(Some(u), active);
    assert r == SortDesc(RankKey, kept);
    forall s
      ensures s in r <==> s in all && s.proficiencyScore > 0
    {
      assert s in r <==> s in multiset(kept);
      FilterCount(all, PositiveScore, s);
    }
  }

  /** Case-sensitivity: an event listing "React" gets nothing from a user whose key is "react". */
  lemma CaseMismatchIsDropped(h: Hackathon)
    requires h.techStacks == Some(["React"])
    ensures MatchCount(h.techStacks, [Entry("react", 40)]) == 0
    ensures ProficiencyScore(h.techStacks, [Entry("react", 40)]) == 0
    ensures RecommendHackathons(Some([Entry("react", 40)]), [h]) == []
  {
    var u: Usage := [Entry("react", 40)];
    assert "React" != "react";
    assert Keys(u) == {"react"};
    NoVerbatimKeyScoresZero(["React"], u);
    var s := Scored(h, u);
    assert ScoreAll([h], u) == [s];
    assert SortDesc(RankKey, [s]) == [s];
  }
}

=== FILE: gemini_reply.dfy ===
/**
 * The text handling around the AI model in HackathonService: what
 * `callGeminiAPI` returns without a key, how `parseGeminiResponse` gets from
 * the reply body to a list of scored users, and the post-processing of
 * `evaluateUserWithGemini`.
 *
 * JSON is not modelled: `textOf` stands for reading
 * `candidates[0].content.parts[0].text` out of the reply body (`None` when
 * the body does not parse or a step of that path is missing), `parseList`
 * and `parseResult` for Jackson's reading of the extracted text (`None`
 * when it throws or yields null).
 */
module GeminiReply {
  import opened Wrappers
  import opened JavaStrings
  import opened Users
  import opened Hackathons

  /**
   * `callGeminiAPI`: `"[]"` without a configured key; otherwise the
   * serialised reply body, where `None` stands for a null body or a failed
   * request, both of which also give `"[]"`.
   */
  function CallGemini(apiKey: Option<string>, body: Option<string>): (r: string)
    ensures apiKey.None? || apiKey.value == [] || body.None? ==> r == "[]"
    ensures apiKey.Some? && apiKey.value != [] && body.Some? ==> r == body.value
  {
    if apiKey.None? || apiKey.value == [] then "[]"
    else if body.None? then "[]"
    else body.value
  }

  /** `text.replaceAll("```json", "").replaceAll("```", "").trim()` */
  function CleanReplyText(text: string): (r: string)
    ensures |r| <= |text|
    ensures r == [] || (!IsWhite(r[0]) && !IsWhite(r[|r| - 1]))
    ensures NoFence(r)
  {
    var stripped := RemoveAll(RemoveAll(text, "```json"), "```");
    NoFenceLeft(RemoveAll(text, "```json"));
    TrimNoFence(stripped);
    Trim(stripped)
  }

  /** Three backquotes in a row start at position `i`. */
  predicate FenceAt(s: string, i: int)
    requires 0 <= i <= |s| - 3
  {
    s[i] == '`' && s[i + 1] == '`' && s[i + 2] == '`'
  }

  /** No three backquotes in a row: no code fence, opening or closing. */
  predicate NoFence(s: string)
  {
    forall i :: 0 <= i <= |s| - 3 ==> !FenceAt(s, i)
  }

  /** Trimming fence-free text leaves it fence-free, and trimmed. */
  lemma TrimNoFence(s: string)
    requires NoFence(s)
    ensures NoFence(Trim(s))
    ensures Trim(s) == [] || (!IsWhite(Trim(s)[0]) && !IsWhite(Trim(s)[|Trim(s)| - 1]))
  {
    TrimSpec(s);
    var a := |s| - |TrimStart(s)|;
    NoFenceSlice(s, a, a + |Trim(s)|);
  }

  /** A piece of fence-free text is fence-free. */
  lemma NoFenceSlice(s: string, a: nat, b: nat)
    requires a <= b <= |s| && NoFence(s)
    ensures NoFence(s[a..b])
  {
    forall i | 0 <= i <= b - a - 3
      ensures !FenceAt(s[a..b], i)
    {
      assert FenceAt(s[a..b], i) == FenceAt(s, a + i);
    }
  }

  /** Deleting fences keeps a text that does not start with a backquote starting the same way. */
  lemma FirstKept(u: string)
    requires u != [] && u[0] != '`'
    ensures RemoveAll(u, "```") != [] && RemoveAll(u, "```")[0] == u[0]
  {
    if |u| >= 3 {
      assert u[..3][0] == u[0];
    }
  }

  /**
   * Deleting every "```" leaves none: the deletion takes three backquotes at
   * a time out of each run of them, so fewer than three are left of a run,
   * and runs stay apart.
   */
  lemma {:induction false} NoFenceLeft(s: string)
    ensures NoFence(RemoveAll(s, "```"))
    decreases |s|
  {
    if |s| >= 3 {
      assert s[..3] == [s[0], s[1], s[2]];
      if s[..3] == "```" {
        NoFenceLeft(s[3..]);
      } else {
        var t := RemoveAll(s[1..], "```");
        NoFenceLeft(s[1..]);
        var r := [s[0]] + t;
        assert RemoveAll(s, "```") == r;
        forall i | 0 <= i <= |r| - 3
          ensures !FenceAt(r, i)
        {
          if i > 0 {
            assert FenceAt(r, i) == FenceAt(t, i - 1);
          } else if s[0] == '`' {
            if s[1] != '`' {
              FirstKept(s[1..]);
              assert r[1] != '`';
            } else if |s| == 3 {
              assert t == s[1..];
              assert r[2] == s[2];
            } else {
              assert s[1..][..3] == [s[1], s[2], s[3]];
              assert s[1..][1..] == s[2..];
              assert t == [s[1]] + RemoveAll(s[2..], "```");
              FirstKept(s[2..]);
              assert r[2] != '`';
            }
          }
        }
      }
    }
  }

  /** Text without backquotes only loses its surrounding white space. */
  lemma CleanPlainText(text: string)
    requires '`' !in text
    ensures CleanReplyText(text) == Trim(text)
  {
  }

  /**
   * The span from the first `open` to the last `close`, when that `close`
   * comes after the `open`.
   */
  function Between(t: string, open: char, close: char): (r: Option<string>)
    ensures r.Some? <==> IndexOf(t, open) >= 0 && LastIndexOf(t, close) > IndexOf(t, open)
    ensures r.Some? ==>
              var i, j := IndexOf(t, open), LastIndexOf(t, close);
              && |r.value| >= 2 && r.value == t[i..j + 1]
              && r.value[0] == open && r.value[|r.value| - 1] == close
              && open !in t[..i] && close !in t[j + 1..]
  {
    var i, j := IndexOf(t, open), LastIndexOf(t, close);
    if i >= 0 && j > i then Some(t[i..j + 1]) else None
  }

  /**
   * The array extraction of `parseGeminiResponse`: nothing when there is
   * no `[`; the bracketed span when there is one; otherwise the text as it is.
   */
  function ExtractArrayText(t: string): (r: Option<string>)
    ensures r.None? <==> '[' !in t
    ensures r.Some? && Between(t, '[', ']').None? ==> r.value == t
    ensures Between(t, '[', ']').Some? ==> r == Between(t, '[', ']')
  {
    if IndexOf(t, '[') < 0 then None
    else if Between(t, '[', ']').Some? then Between(t, '[', ']')
    else Some(t)
  }

  /**
   * Every step of reading a reply succeeds and the parser yields `list`: the
   * reply is neither blank nor "[]", its text part is present and not blank,
   * the cleaned text has a `[`, and the extracted array text parses.
   */
  predicate Parses(response: Option<string>, textOf: string -> Option<string>,
                   parseList: string -> Option<seq<ScoredUser>>, list: seq<ScoredUser>)
  {
    && response.Some? && !IsBlank(response.value) && response.value != "[]"
    && textOf(response.value).Some? && !IsBlank(textOf(response.value).value)
    && ExtractArrayText(CleanReplyText(textOf(response.value).value)).Some?
    && parseList(ExtractArrayText(CleanReplyText(textOf(response.value).value)).value) == Some(list)
  }

  /** The scored users `parseGeminiResponse` reads from a reply, before names are filled in. */
  function ParsedReply(response: Option<string>, textOf: string -> Option<string>,
                       parseList: string -> Option<seq<ScoredUser>>): (r: seq<ScoredUser>)
    ensures response.None? || IsBlank(response.value) || response.value == "[]" ==> r == []
    ensures forall list :: Parses(response, textOf, parseList, list) ==> r == list
    ensures r != [] ==> Parses(response, textOf, parseList, r)
  {
    if response.None? || IsBlank(response.value) || response.value == "[]" then []
    else
      match textOf(response.value)
      case None => []
      case Some(text) =>
        if IsBlank(text) then []
        else
          match ExtractArrayText(CleanReplyText(text))
          case None => []
          case Some(json) =>
            match parseList(json)
            case None => []
            case Some(list) => list
  }

  /** Without an API key the AI step yields no users. */
  lemma NoKeyNoUsers(apiKey: Option<string>, body: Option<string>,
                     textOf: string -> Option<string>, parseList: string -> Option<seq<ScoredUser>>)
    requires apiKey.None? || apiKey.value == []
    ensures ParsedReply(Some(CallGemini(apiKey, body)), textOf, parseList) == []
  {
  }

  /** A reply whose text has no `[` yields no users, whatever the parser would do. */
  lemma NoBracketNoUsers(response: string, text: string,
                         textOf: string -> Option<string>, parseList: string -> Option<seq<ScoredUser>>)
    requires textOf(response) == Some(text) && '[' !in text
    ensures ParsedReply(Some(response), textOf, parseList) == []
  {
    var once := RemoveAll(text, "```json");
    RemoveAllKeepsOut(text, "```json", '[');
    var twice := RemoveAll(once, "```");
    RemoveAllKeepsOut(once, "```", '[');
    TrimKeepsOut(twice, '[');
    assert CleanReplyText(text) == Trim(twice);
    assert ExtractArrayText(CleanReplyText(text)).None?;
  }

  /** Deleting a pattern without `c` does not bring in `c`. */
  lemma {:induction false} RemoveAllKeepsOut(s: string, pat: string, c: char)
    requires |pat| > 0 && c !in s && c !in pat
    ensures c !in RemoveAll(s, pat)
    decreases |s|
  {
    if |s| >= |pat| {
      if s[..|pat|] == pat {
        RemoveAllKeepsOut(s[|pat|..], pat, c);
      } else {
        RemoveAllKeepsOut(s[1..], pat, c);
      }
    }
  }

  /** Trimming does not bring in `c`. */
  lemma TrimKeepsOut(s: string, c: char)
    requires c !in s
    ensures c !in Trim(s)
  {
    TrimSpec(s);
  }

  /** The first user in `users` with id `id` (`toMap` keeps the first on a clash). */
  function UserWithId(users: seq<Option<UserDoc>>, id: string): (r: Option<UserDoc>)
    ensures r.Some? ==> Some(r.value) in users && r.value.id == Some(id)
    ensures r.None? <==> forall i :: 0 <= i < |users| ==> users[i].None? || users[i].value.id != Some(id)
    ensures r.Some? ==> exists i :: 0 <= i < |users| && users[i] == Some(r.value) && NoIdBefore(users, id, i)
  {
    if users == [] then None
    else if users[0].Some? && users[0].value.id == Some(id) then users[0]
    else
      var r := UserWithId(users[1..], id);
      assert r.Some? ==> exists i :: 0 < i < |users| && users[i] == Some(r.value) && NoIdBefore(users, id, i) by {
        if r.Some? {
          var i :| 0 <= i < |users| - 1 && users[1..][i] == Some(r.value) && NoIdBefore(users[1..], id, i);
          NoIdBeforeShift(users, id, i);
        }
      }
      r
  }

  /** No user before position `i` has id `id`. */
  predicate NoIdBefore(users: seq<Option<UserDoc>>, id: string, i: int)
    requires 0 <= i <= |users|
  {
    forall j :: 0 <= j < i ==> users[j].None? || users[j].value.id != Some(id)
  }

  lemma NoIdBeforeShift(users: seq<Option<UserDoc>>, id: string, i: int)
    requires 0 <= i < |users|
    requires users[0].None? || users[0].value.id != Some(id)
    requires NoIdBefore(users[1..], id, i)
    ensures NoIdBefore(users, id, i + 1)
  {
    assert forall j :: 1 <= j < i + 1 ==> users[j] == users[1..][j - 1];
  }

  /** One entry after the name pass: a known user id gets that user's shown name. */
  function Refill(s: ScoredUser, users: seq<Option<UserDoc>>): (r: ScoredUser)
    ensures r == s.(name := r.name)
    ensures s.userId.Some? && UserWithId(users, s.userId.value).Some? ==>
              r.name == ShownName(UserWithId(users, s.userId.value).value)
    ensures s.userId.None? || UserWithId(users, s.userId.value).None? ==> r == s
  {
    if s.userId.Some? && UserWithId(users, s.userId.value).Some? then
      s.(name := ShownName(UserWithId(users, s.userId.value).value))
    else s
  }

  function Refilled(list: seq<ScoredUser>, users: seq<Option<UserDoc>>): (r: seq<ScoredUser>)
    ensures |r| == |list|
    ensures forall i :: 0 <= i < |list| ==> r[i] == Refill(list[i], users)
  {
    seq(|list|, i requires 0 <= i < |list| => Refill(list[i], users))
  }

  /**
   * Only names change, and only on entries whose id belongs to a user:
   * entries with unknown ids, and their scores, are kept as the model sent them.
   */
  lemma RefilledKeepsEntries(list: seq<ScoredUser>, users: seq<Option<UserDoc>>)
    ensures forall i :: 0 <= i < |list| ==>
              var r := Refilled(list, users)[i];
              && r.userId == list[i].userId && r.score == list[i].score && r.matchedSkills == list[i].matchedSkills
              && (list[i].userId.None? || UserWithId(users, list[i].userId.value).None? ==> r == list[i])
              && (list[i].userId.Some? && UserWithId(users, list[i].userId.value).Some? ==>
                    r.name == ShownName(UserWithId(users, list[i].userId.value).value))
  {
  }

  /**
   * `parseGeminiResponse`: read the list, then set each entry's name from
   * the user with its id.
   */
  method ParseGeminiResponse(response: Option<string>, users: seq<Option<UserDoc>>,
                             textOf: string -> Option<string>, parseList: string -> Option<seq<ScoredUser>>)
    returns (r: seq<ScoredUser>)
    ensures r == Refilled(ParsedReply(response, textOf, parseList), users)
  {
    var list := ParsedReply(response, textOf, parseList);
    r := list;
    for i := 0 to |list|
      invariant |r| == |list|
      invariant forall k :: 0 <= k < i ==> r[k] == Refill(list[k], users)
      invariant forall k :: i <= k < |list| ==> r[k] == list[k]
    {
      var s := list[i];
      if s.userId.Some? {
        var user := UserWithId(users, s.userId.value);
        if user.Some? {
          r := r[i := s.(name := ShownName(user.value))];
        }
      }
    }
  }

  // ---------------------------------------------------------------------------
  // evaluateUserWithGemini

  /** `MatchingResult`. */
  datatype MatchingResult = MatchingResult(matchScore: int, overallSkillLevel: Option<string>, matchingReason: Option<string>)

  const DefaultScore: int := 50
  const DefaultLevel: string := "Intermediate"
  const DefaultReason: string := "Matched based on tech stack"

  /** The validation applied to a parsed matching result. */
  function NormalizeMatching(m: MatchingResult): (r: MatchingResult)
    ensures 0 <= r.matchScore <= 100
    ensures 0 <= m.matchScore <= 100 ==> r.matchScore == m.matchScore
    ensures !(0 <= m.matchScore <= 100) ==> r.matchScore == DefaultScore
    ensures r.overallSkillLevel.Some? && r.overallSkillLevel.value != []
    ensures r.matchingReason.Some? && r.matchingReason.value != []
    ensures m.overallSkillLevel.Some? && m.overallSkillLevel.value != [] ==> r.overallSkillLevel == m.overallSkillLevel
    ensures m.matchingReason.Some? && m.matchingReason.value != [] ==> r.matchingReason == m.matchingReason
  {
    var score := if m.matchScore < 0 || m.matchScore > 100 then DefaultScore else m.matchScore;
    var level := if m.overallSkillLevel.None? || m.overallSkillLevel.value == [] then Some(DefaultLevel) else m.overallSkillLevel;
    var reason := if m.matchingReason.None? || m.matchingReason.value == [] then Some(DefaultReason) else m.matchingReason;
    MatchingResult(score, level, reason)
  }

  /** Validating an already valid result changes nothing. */
  lemma NormalizeMatchingIdempotent(m: MatchingResult)
    ensures NormalizeMatching(NormalizeMatching(m)) == NormalizeMatching(m)
  {
  }

  /** The object extraction: the braced span when there is one, otherwise the text as it is. */
  function ExtractObjectText(t: string): (r: string)
    ensures Between(t, '{', '}').Some? ==> r == Between(t, '{', '}').value
    ensures Between(t, '{', '}').None? ==> r == t
  {
    var b := Between(t, '{', '}');
    if b.Some? then b.value else t
  }

  /**
   * `evaluateUserWithGemini` after the model call: `None` (the method's
   * null) without a key, an empty reply or a failed parse; otherwise the
   * validated result.
   */
  function EvaluateUser(apiKey: Option<string>, replyText: Option<string>,
                        parseResult: string -> Option<MatchingResult>): (r: Option<MatchingResult>)
    ensures apiKey.None? || apiKey.value == [] || replyText.None? || replyText.value == [] ==> r.None?
    ensures r.Some? ==> 0 <= r.value.matchScore <= 100
    ensures apiKey.Some? && apiKey.value != [] && replyText.Some? && replyText.value != [] ==>
              r == match parseResult(ExtractObjectText(CleanReplyText(replyText.value)))
                   case None => None
                   case Some(m) => Some(NormalizeMatching(m))
  {
    if apiKey.None? || apiKey.value == [] then None
    else if replyText.None? || replyText.value == [] then None
    else
      var json := ExtractObjectText(CleanReplyText(replyText.value));
      match parseResult(json)
      case None => None
      case Some(m) => Some(NormalizeMatching(m))
  }
}

=== FILE: hackathon_model.dfy ===
/**
 * The values the recommendation code of HackathonService works on: events,
 * a user's framework-usage statistics, and the two result records.
 */
module Hackathons {
  import opened Wrappers
  import opened Users

  /** An event, reduced to the fields the recommendation code reads. */
  datatype Hackathon = Hackathon(
    id: string,
    title: Option<string>,
    techStacks: Option<seq<string>>,
    latitude: Option<real>,
    longitude: Option<real>,
    createdBy: Option<string>,
    acceptedUsers: Option<seq<string>>
  )

  /** One entry of a `Map<String, Integer>` of framework usage. */
  datatype Entry = Entry(name: string, weight: int)

  predicate DistinctNames(u: seq<Entry>)
  {
    forall i, j :: 0 <= i < j < |u| ==> u[i].name != u[j].name
  }

  /**
   * A framework-usage map, as its entries in the map's iteration order;
   * the order matters where the code stops at the first matching key.
   */
  type Usage = u: seq<Entry> | DistinctNames(u) witness []

  /** `keySet()`. */
  function Keys(u: Usage): set<string>
  {
    set e | e in u :: e.name
  }

  /** `get(k)`, with `None` for an absent key. */
  function Lookup(u: seq<Entry>, k: string): (r: Option<int>)
    ensures r.None? <==> forall i :: 0 <= i < |u| ==> u[i].name != k
    ensures r.Some? ==> Entry(k, r.value) in u
  {
    if u == [] then None
    else if u[0].name == k then Some(u[0].weight)
    else Lookup(u[1..], k)
  }

  /** `getOrDefault(k, d)`. */
  function GetOrDefault(u: Usage, k: string, d: int): (r: int)
    ensures k !in Keys(u) ==> r == d
    ensures forall w :: Entry(k, w) in u ==> r == w
  {
    var found := Lookup(u, k);
    if found.Some? then
      KeyHasOneWeight(u, k);
      found.value
    else
      assert forall e :: e in u ==> e.name != k;
      d
  }

  /** In a map, a key has one weight. */
  lemma KeyHasOneWeight(u: Usage, k: string)
    ensures forall w, v :: Entry(k, w) in u && Entry(k, v) in u ==> w == v
  {
    forall w, v | Entry(k, w) in u && Entry(k, v) in u
      ensures w == v
    {
      var i :| 0 <= i < |u| && u[i] == Entry(k, w);
      var j :| 0 <= j < |u| && u[j] == Entry(k, v);
    }
  }

  /** `ScoredHackathon`: an event with its match count and proficiency score. */
  datatype ScoredHackathon = ScoredHackathon(hackathon: Hackathon, matchCount: int, proficiencyScore: int)

  /** The name shown for a user: the display name when there is one, else the username. */
  function ShownName(d: UserDoc): (n: Option<string>)
    ensures d.displayName.Some? ==> n == d.displayName
    ensures d.displayName.None? ==> n == d.username
    ensures n.None? <==> d.displayName.None? && d.username.None?
  {
    if d.displayName.Some? then d.displayName else d.username
  }

  /** `ScoredUser`: a recommended user; the fields the AI reply supplies may be null. */
  datatype ScoredUser = ScoredUser(userId: Option<string>, name: Option<string>, score: real, matchedSkills: seq<string>)
}

=== FILE: hackathon_service.dfy ===
/**
 * The smaller pieces of HackathonService: the Gemini configuration read at
 * start-up, the date check on a new event, and the cache-aside lookup of an
 * event by id.
 */
module HackathonConfig {
  import opened Wrappers
  import opened JavaStrings
  import opened Hackathons

  /** The model used when none is configured. */
  const DefaultModel: string := "gemini-2.5-flash"

  const NotFoundPrefix: string := "Hackathon not found with id: "

  const DateOrderMessage: string := "End date cannot be before start date"

  /** Null or empty: the value the environment is consulted for. */
  predicate Missing(s: Option<string>)
  {
    s.None? || s.value == []
  }

  /**
   * The API key: `fromFile` is the value `dotenv.get` returns, taken unless
   * it is null or empty, else the process environment's; trimmed when
   * present. (`None` for `fromFile` also stands for a `.env` file that fails
   * to load.)
   */
  function ResolveKey(fromFile: Option<string>, fromEnv: Option<string>): (r: Option<string>)
    ensures r.None? <==> Missing(fromFile) && fromEnv.None?
    ensures r.Some? ==> Trim(r.value) == r.value
    ensures r.Some? && !Missing(fromFile) ==> r.value == Trim(fromFile.value)
    ensures r.Some? && Missing(fromFile) ==> r.value == Trim(fromEnv.value)
  {
    var key := if Missing(fromFile) then fromEnv else fromFile;
    if key.None? then None
    else
      TrimIdempotent(key.value);
      Some(Trim(key.value))
  }

  /** `Trim` leaves the default model name alone. */
  lemma DefaultModelTrimmed()
    ensures Trim(DefaultModel) == DefaultModel
  {
    assert TrimStart(DefaultModel) == DefaultModel;
  }

  /**
   * The model name: resolved like the key, then the default when it is
   * missing or empty after trimming. It is never empty and never has
   * surrounding blanks.
   */
  function ResolveModel(fromFile: Option<string>, fromEnv: Option<string>): (r: string)
    ensures r != [] && Trim(r) == r
    ensures var k := ResolveKey(fromFile, fromEnv);
            r == if k.None? || k.value == [] then DefaultModel else k.value
    ensures r != DefaultModel ==> exists s :: (s == fromFile || s == fromEnv) && s.Some? && r == Trim(s.value)
  {
    var model := ResolveKey(fromFile, fromEnv);
    if model.None? || model.value == [] then
      DefaultModelTrimmed();
      DefaultModel
    else
      var source := if Missing(fromFile) then fromEnv else fromFile;
      assert source.Some? && model.value == Trim(source.value);
      model.value
  }

  /** The logged form of the key: its first five characters, or a fixed marker. */
  function MaskKey(key: Option<string>): (r: string)
    ensures key.None? ==> r == "NULL"
    ensures key.Some? && |key.value| > 5 ==> r == key.value[..5] + "..."
    ensures key.Some? && |key.value| <= 5 ==> r == "***"
  {
    if key.Some? && |key.value| > 5 then key.value[..5] + "..."
    else if key.None? then "NULL"
    else "***"
  }

  /**
   * The mask shows nothing past the fifth character: keys that agree on
   * null-ness, on being longer than five, and on their first five
   * characters are logged alike.
   */
  lemma MaskShowsOnlyPrefix(k1: Option<string>, k2: Option<string>)
    requires k1.None? <==> k2.None?
    requires k1.Some? ==> (|k1.value| > 5 <==> |k2.value| > 5)
    requires k1.Some? && |k1.value| > 5 ==> k1.value[..5] == k2.value[..5]
    ensures MaskKey(k1) == MaskKey(k2)
    ensures k1.Some? && |k1.value| > 8 ==> MaskKey(k1) != k1.value
  {
    if k1.Some? && |k1.value| > 8 {
      assert |MaskKey(k1)| == 8;
    }
  }

  /** `validateRequest`, over instants given as numbers: the end may not precede the start. */
  function ValidateRequest(start: int, end: int): (r: Outcome<string>)
    ensures r.Fail? <==> end < start
    ensures r.Fail? ==> r.error == DateOrderMessage
  {
    if end < start then Fail(DateOrderMessage) else Pass
  }

  /** Every cached event is the one the store holds under that id. */
  predicate Coherent(cache: map<string, Hackathon>, store: map<string, Hackathon>)
  {
    forall id :: id in cache ==> id in store && cache[id] == store[id]
  }

  /** The answer of `getHackathonById` and the cache after it. */
  function CacheAside(cache: map<string, Hackathon>, store: map<string, Hackathon>, id: string)
    : (r: (Result<Hackathon, string>, map<string, Hackathon>))
    ensures id in cache ==> r.0 == Success(cache[id])
    ensures id !in cache && id in store ==> r.0 == Success(store[id])
    ensures r.0.Failure? <==> id !in cache && id !in store
    ensures r.0.Failure? ==> r.0.error == NotFoundPrefix + id && r.1 == cache
    ensures r.0.Success? ==> id in r.1 && r.1[id] == r.0.value
    ensures r.1.Keys == cache.Keys + (if id in store then {id} else {})
    ensures forall k :: k in cache ==> r.1[k] == cache[k]
  {
    if id in cache then (Success(cache[id]), cache)
    else if id in store then (Success(store[id]), cache[id := store[id]])
    else (Failure(NotFoundPrefix + id), cache)
  }

  /**
   * With a coherent cache the lookup answers exactly what the store holds,
   * and the cache stays coherent.
   */
  lemma CacheAsideAgreesWithStore(cache: map<string, Hackathon>, store: map<string, Hackathon>, id: string)
    requires Coherent(cache, store)
    ensures CacheAside(cache, store, id).0 ==
            if id in store then Success(store[id]) else Failure(NotFoundPrefix + id)
    ensures Coherent(CacheAside(cache, store, id).1, store)
  {
  }

  /** A second lookup of the same id is answered from the cache, with the same event. */
  lemma CacheAsideRepeat(cache: map<string, Hackathon>, store: map<string, Hackathon>, id: string)
    requires CacheAside(cache, store, id).0.Success?
    ensures var (r1, c1) := CacheAside(cache, store, id);
            CacheAside(c1, store, id) == (r1, c1)
  {
  }

  /** The service's configuration fields and its event cache. */
  class HackathonService {
    var geminiApiKey: Option<string>
    var geminiModel: Option<string>
    var cache: map<string, Hackathon>

    constructor ()
      ensures geminiApiKey.None? && geminiModel.None? && cache == map[]
    {
      geminiApiKey := None;
      geminiModel := None;
      cache := map[];
    }

    /** `initGemini`, with the `.env` and environment values as inputs. */
    method InitGemini(fileKey: Option<string>, fileModel: Option<string>,
                      envKey: Option<string>, envModel: Option<string>) returns (masked: string)
      modifies this`geminiApiKey, this`geminiModel
      ensures geminiApiKey == ResolveKey(fileKey, envKey)
      ensures geminiModel == Some(ResolveModel(fileModel, envModel))
      ensures masked == MaskKey(geminiApiKey)
    {
      var key, model := fileKey, fileModel;
      if key.None? || key.value == [] {
        key := envKey;
      }
      if model.None? || model.value == [] {
        model := envModel;
      }
      if key.Some? {
        key := Some(Trim(key.value));
      }
      if model.Some? {
        model := Some(Trim(model.value));
      }
      geminiApiKey := key;
      geminiModel := if model.None? || model.value == [] then Some(DefaultModel) else model;
      masked := if geminiApiKey.Some? && |geminiApiKey.value| > 5 then geminiApiKey.value[..5] + "..."
                else if geminiApiKey.None? then "NULL" else "***";
    }

    /** `getHackathonById`: the cache first, then the store, whose hit is written to the cache. */
    method GetHackathonById(id: string, store: map<string, Hackathon>) returns (r: Result<Hackathon, string>)
      modifies this`cache
      ensures (r, cache) == CacheAside(old(cache), store, id)
    {
      if id in cache {
        return Success(cache[id]);
      }
      if id in store {
        cache := cache[id := store[id]];
        return Success(store[id]);
      }
      r := Failure(NotFoundPrefix + id);
    }
  }
}

=== FILE: java_strings.dfy ===
/**
 * The few java.lang.String operations the recommendation code relies on,
 * with Java's semantics written out over `seq<char>`.
 */
module JavaStrings {
  import opened Seqs

  /** `Character.toLowerCase`, on the ASCII letters (other characters are unchanged). */
  function LowerChar(c: char): char
  {
    if 'A' <= c <= 'Z' then (c as int + 32) as char else c
  }

  /** `String.toLowerCase()`. */
  function ToLower(s: string): (r: string)
    ensures |r| == |s|
    ensures forall i :: 0 <= i < |s| ==> r[i] == LowerChar(s[i])
  {
    seq(|s|, i requires 0 <= i < |s| => LowerChar(s[i]))
  }

  /** The characters `String.trim()` strips: every code point up to U+0020. */
  predicate IsWhite(c: char)
  {
    c <= ' '
  }

  // The trimming functions carry no postconditions: they are used inside
  // quantified statements about many strings, where every postcondition would
  // be instantiated for each of them. Their properties are the lemmas below.

  function TrimStart(s: string): string
  {
    if s != [] && IsWhite(s[0]) then TrimStart(s[1..]) else s
  }

  function TrimEnd(s: string): string
  {
    if s != [] && IsWhite(s[|s| - 1]) then TrimEnd(s[..|s| - 1]) else s
  }

  /**
   * `String.trim()`: leading and trailing characters up to U+0020 removed.
   * Its contract is only the length bound; what it keeps is `TrimSpec`.
   */
  function Trim(s: string): (r: string)
    ensures |r| <= |s|
  {
    TrimStartSpec(s);
    TrimEndSpec(TrimStart(s));
    TrimEnd(TrimStart(s))
  }

  /** `s.trim().isEmpty()`. */
  predicate IsBlank(s: string)
  {
    Trim(s) == []
  }

  /** `TrimStart` drops a white prefix and stops at the first other character. */
  lemma {:induction false} TrimStartSpec(s: string)
    ensures var r := TrimStart(s);
            && |r| <= |s| && r == s[|s| - |r|..]
            && (r == [] || !IsWhite(r[0]))
            && forall i :: 0 <= i < |s| - |r| ==> IsWhite(s[i])
  {
    if s != [] && IsWhite(s[0]) {
      TrimStartSpec(s[1..]);
      var r := TrimStart(s);
      assert forall i :: 1 <= i < |s| - |r| ==> s[i] == s[1..][i - 1];
    }
  }

  /** `TrimEnd` drops a white suffix and stops at the last other character. */
  lemma {:induction false} TrimEndSpec(s: string)
    ensures var r := TrimEnd(s);
            && |r| <= |s| && r == s[..|r|]
            && (r == [] || !IsWhite(r[|r| - 1]))
            && forall i :: |r| <= i < |s| ==> IsWhite(s[i])
  {
    if s != [] && IsWhite(s[|s| - 1]) {
      TrimEndSpec(s[..|s| - 1]);
      var r := TrimEnd(s);
      assert forall i :: |r| <= i < |s| - 1 ==> s[i] == s[..|s| - 1][i];
    }
  }

  /**
   * What `trim()` keeps: the piece `s[a..b]` of the string, where everything
   * before `a` and from `b` on is white and the piece neither starts nor ends
   * with a white character. These conditions determine `a` and `b`.
   */
  lemma TrimSpec(s: string)
    ensures var r, a := Trim(s), |s| - |TrimStart(s)|;
            && 0 <= a <= a + |r| <= |s|
            && r == s[a..a + |r|]
            && (forall i :: 0 <= i < a ==> IsWhite(s[i]))
            && (forall i :: a + |r| <= i < |s| ==> IsWhite(s[i]))
            && (r == [] || (!IsWhite(r[0]) && !IsWhite(r[|r| - 1])))
  {
    TrimKeeps(s);
    TrimDrops(s);
  }

  /** The kept piece of `TrimSpec`. */
  lemma TrimKeeps(s: string)
    ensures var r, a := Trim(s), |s| - |TrimStart(s)|;
            && 0 <= a <= a + |r| <= |s|
            && r == s[a..a + |r|]
            && (r == [] || (!IsWhite(r[0]) && !IsWhite(r[|r| - 1])))
  {
    var t := TrimStart(s);
    TrimStartSpec(s);
    TrimEndSpec(t);
    var r, a := TrimEnd(t), |s| - |t|;
    assert t[..|r|] == s[a..a + |r|];
  }

  /** The dropped pieces of `TrimSpec`. */
  lemma TrimDrops(s: string)
    ensures var r, a := Trim(s), |s| - |TrimStart(s)|;
            && 0 <= a <= a + |r| <= |s|
            && (forall i :: 0 <= i < a ==> IsWhite(s[i]))
            && (forall i :: a + |r| <= i < |s| ==> IsWhite(s[i]))
  {
    var t := TrimStart(s);
    TrimStartSpec(s);
    TrimEndSpec(t);
    var r, a := TrimEnd(t), |s| - |t|;
    forall i | a + |r| <= i < |s|
      ensures IsWhite(s[i])
    {
      assert s[i] == t[i - a];
    }
  }

  /** A string is blank exactly when every character of it is one `trim()` strips. */
  lemma BlankIffAllWhite(s: string)
    ensures IsBlank(s) <==> forall i :: 0 <= i < |s| ==> IsWhite(s[i])
  {
    var t := TrimStart(s);
    TrimStartSpec(s);
    TrimEndSpec(t);
    assert forall i :: |s| - |t| <= i < |s| ==> s[i] == t[i - (|s| - |t|)];
  }

  /** Trimming twice is trimming once. */
  lemma TrimIdempotent(s: string)
    ensures Trim(Trim(s)) == Trim(s)
  {
    var r := Trim(s);
    TrimSpec(s);
    if r != [] {
      assert TrimStart(r) == r;
      assert TrimEnd(r) == r;
    }
  }

  /** `replaceAll(" ", "")`: every U+0020 removed. */
  function RemoveSpaces(s: string): (r: string)
    ensures |r| <= |s|
  {
    if s == [] then []
    else if s[0] == ' ' then RemoveSpaces(s[1..])
    else [s[0]] + RemoveSpaces(s[1..])
  }

  predicate NotSpace(c: char)
  {
    c != ' '
  }

  /**
   * Exactly the spaces go: the result is the string filtered by "not a
   * space", so every other character stays, in order and with its
   * multiplicity.
   */
  lemma {:induction false} RemoveSpacesMembers(s: string)
    ensures RemoveSpaces(s) == Filter(s, NotSpace)
    ensures ' ' !in RemoveSpaces(s)
    ensures forall c :: c != ' ' ==> (c in RemoveSpaces(s) <==> c in s)
  {
    if s != [] {
      RemoveSpacesMembers(s[1..]);
    }
  }

  /**
   * `replaceAll(pat, "")` for a pattern with no regular-expression
   * metacharacters: the matches are found left to right, each search
   * resuming after the previous match, and are deleted.
   */
  function RemoveAll(s: string, pat: string): (r: string)
    requires |pat| > 0
    ensures |r| <= |s|
    ensures pat[0] !in s ==> r == s
    ensures (forall i :: 0 <= i <= |s| - |pat| ==> !OccursAt(s, pat, i)) ==> r == s
    decreases |s|
  {
    if |s| < |pat| then s
    else if s[..|pat|] == pat then
      assert OccursAt(s, pat, 0);
      RemoveAll(s[|pat|..], pat)
    else
      assert forall i :: 0 <= i <= |s| - 1 - |pat| ==> OccursAt(s[1..], pat, i) == OccursAt(s, pat, i + 1) by {
        forall i | 0 <= i <= |s| - 1 - |pat|
          ensures OccursAt(s[1..], pat, i) == OccursAt(s, pat, i + 1)
        {
          assert s[1..][i..i + |pat|] == s[i + 1..i + 1 + |pat|];
        }
      }
      [s[0]] + RemoveAll(s[1..], pat)
  }

  /** `pat` occurs in `s` at position `i`. */
  predicate OccursAt(s: string, pat: string, i: int)
    requires 0 <= i <= |s| - |pat|
  {
    s[i..i + |pat|] == pat
  }

  /** `s.indexOf(c)`: the first position of `c`, or -1. */
  function IndexOf(s: string, c: char): (i: int)
    ensures -1 <= i < |s|
    ensures i == -1 <==> c !in s
    ensures 0 <= i ==> s[i] == c && c !in s[..i]
  {
    if s == [] then -1
    else if s[0] == c then 0
    else
      var k := IndexOf(s[1..], c);
      assert s[1..][..k + 1] == s[1..k + 2];
      if k == -1 then -1 else k + 1
  }

  /** `s.lastIndexOf(c)`: the last position of `c`, or -1. */
  function LastIndexOf(s: string, c: char): (j: int)
    ensures -1 <= j < |s|
    ensures j == -1 <==> c !in s
    ensures 0 <= j ==> s[j] == c && c !in s[j + 1..]
  {
    if s == [] then -1
    else if s[|s| - 1] == c then |s| - 1
    else
      var init := s[..|s| - 1];
      assert s == init + [s[|s| - 1]];
      var k := LastIndexOf(init, c);
      assert k >= 0 ==> s[k] == init[k] && s[k + 1..] == init[k + 1..] + [s[|s| - 1]];
      k
  }

  /**
   * The technology-name normal form used by the recommendation code:
   * `name.toLowerCase().trim().replaceAll(" ", "")`.
   */
  function Normalize(s: string): (r: string)
    ensures ' ' !in r && |r| <= |s|
  {
    RemoveSpacesMembers(Trim(ToLower(s)));
    RemoveSpaces(Trim(ToLower(s)))
  }
}

=== FILE: proximity.dfy ===
/**
 * `findNearbyHackathons`: the active events with coordinates whose distance
 * from the given point is within the radius, in input order. The haversine
 * distance is the parameter `dist` (latitude and longitude of the point, then
 * of the event).
 */
module Proximity {
  import opened Seqs
  import opened Hackathons

  type Distance = (real, real, real, real) -> real

  /** The radius the two-argument overload passes, in kilometres. */
  const DefaultRadius: real := 100.0

  /** The stream filter's test for one event. */
  function Near(lat: real, lon: real, radius: real, dist: Distance): (near: Hackathon -> bool)
    ensures forall h: Hackathon :: near(h) ==> h.latitude.Some? && h.longitude.Some?
  {
    (h: Hackathon) => h.latitude.Some? && h.longitude.Some? && dist(lat, lon, h.latitude.value, h.longitude.value) <= radius
  }

  function FindNearbyHackathons(lat: real, lon: real, radius: real, active: seq<Hackathon>, dist: Distance): (r: seq<Hackathon>)
    ensures |r| <= |active|
  {
    Filter(active, Near(lat, lon, radius, dist))
  }

  /** The overload without a radius. */
  function FindNearbyDefault(lat: real, lon: real, active: seq<Hackathon>, dist: Distance): (r: seq<Hackathon>)
    ensures r == FindNearbyHackathons(lat, lon, DefaultRadius, active, dist)
  {
    FindNearbyHackathons(lat, lon, 100.0, active, dist)
  }

  /** Exactly the events that have both coordinates and lie within the radius. */
  lemma NearbyMembers(lat: real, lon: real, radius: real, active: seq<Hackathon>, dist: Distance)
    ensures forall h :: h in FindNearbyHackathons(lat, lon, radius, active, dist) <==>
              h in active && h.latitude.Some? && h.longitude.Some? &&
              dist(lat, lon, h.latitude.value, h.longitude.value) <= radius
  {
    var p := Near(lat, lon, radius, dist);
    FilterMembers(active, p);
    forall h | h in active && p(h) ensures h in Filter(active, p) {
      var i :| 0 <= i < |active| && active[i] == h;
    }
  }

  /** Input order is kept: the result on a concatenation is the concatenation of the results. */
  lemma NearbyAppend(lat: real, lon: real, radius: real, a: seq<Hackathon>, b: seq<Hackathon>, dist: Distance)
    ensures FindNearbyHackathons(lat, lon, radius, a + b, dist) ==
            FindNearbyHackathons(lat, lon, radius, a, dist) + FindNearbyHackathons(lat, lon, radius, b, dist)
  {
    FilterAppend(a, b, Near(lat, lon, radius, dist));
  }

  /** An event without coordinates is never returned, whatever the radius. */
  lemma NoCoordinatesNeverNear(lat: real, lon: real, radius: real, h: Hackathon, dist: Distance)
    requires h.latitude.None? || h.longitude.None?
    ensures FindNearbyHackathons(lat, lon, radius, [h], dist) == []
  {
  }

  /** Shrinking the radius filters the larger result further. */
  lemma {:induction false} SmallerRadius(lat: real, lon: real, r1: real, r2: real, active: seq<Hackathon>, dist: Distance)
    requires r1 <= r2
    ensures FindNearbyHackathons(lat, lon, r1, active, dist) ==
            Filter(FindNearbyHackathons(lat, lon, r2, active, dist), Near(lat, lon, r1, dist))
  {
    if active != [] {
      SmallerRadius(lat, lon, r1, r2, active[1..], dist);
      var h := active[0];
      var p1, p2 := Near(lat, lon, r1, dist), Near(lat, lon, r2, dist);
      var tail2 := Filter(active[1..], p2);
      if p2(h) {
        assert Filter(active, p2) == [h] + tail2;
        assert ([h] + tail2)[1..] == tail2;
      } else {
        assert Filter(active, p2) == tail2;
      }
    }
  }
}

=== FILE: ranking.dfy ===
/**
 * Stable descending sort on a two-level key, the model of the comparators
 * the recommendation code hands to `Stream.sorted` and `List.sort` (both of
 * which are stable in Java): compare the primary key descending, then the
 * secondary key descending, and keep the input order of equal keys.
 */
module Ranking {
  import opened Seqs

  /** (primary, secondary) */
  type Key = (real, real)

  /** `a` comes strictly before `b` under the comparator. */
  predicate Outranks(a: Key, b: Key)
  {
    a.0 > b.0 || (a.0 == b.0 && a.1 > b.1)
  }

  /** No element is outranked by an element that follows it. */
  predicate SortedDesc<T>(key: T -> Key, s: seq<T>)
  {
    forall i, j :: 0 <= i < j < |s| ==> !Outranks(key(s[j]), key(s[i]))
  }

  /** The test "carries key `k`". */
  function KeyIs<T>(key: T -> Key, k: Key): T -> bool
  {
    x => key(x) == k
  }

  /** The elements of `s` whose key is exactly `k`, in order. */
  function WithKey<T>(key: T -> Key, s: seq<T>, k: Key): seq<T>
  {
    Filter(s, KeyIs(key, k))
  }

  /** Puts `x` after the elements that outrank it and before all others. */
  function Insert<T>(key: T -> Key, x: T, s: seq<T>): seq<T>
  {
    if s == [] then [x]
    else if Outranks(key(s[0]), key(x)) then [s[0]] + Insert(key, x, s[1..])
    else [x] + s
  }

  /** Stable insertion sort: each element goes in front of the equal-keyed elements that follow it in the input. */
  function SortDesc<T>(key: T -> Key, xs: seq<T>): seq<T>
  {
    if xs == [] then [] else Insert(key, xs[0], SortDesc(key, xs[1..]))
  }

  lemma {:induction false} InsertPermutation<T>(key: T -> Key, x: T, s: seq<T>)
    ensures multiset(Insert(key, x, s)) == multiset(s) + multiset{x}
  {
    if s != [] && Outranks(key(s[0]), key(x)) {
      InsertPermutation(key, x, s[1..]);
      assert s == [s[0]] + s[1..];
    }
  }

  /** The sort is a permutation of its input. */
  lemma {:induction false} SortPermutation<T>(key: T -> Key, xs: seq<T>)
    ensures multiset(SortDesc(key, xs)) == multiset(xs)
    ensures |SortDesc(key, xs)| == |xs|
  {
    if xs != [] {
      SortPermutation(key, xs[1..]);
      InsertPermutation(key, xs[0], SortDesc(key, xs[1..]));
      assert xs == [xs[0]] + xs[1..];
    }
    assert |multiset(SortDesc(key, xs))| == |multiset(xs)|;
  }

  lemma {:induction false} InsertSorted<T>(key: T -> Key, x: T, s: seq<T>)
    requires SortedDesc(key, s)
    ensures SortedDesc(key, Insert(key, x, s))
  {
    if s != [] {
      if Outranks(key(s[0]), key(x)) {
        var t := Insert(key, x, s[1..]);
        InsertSorted(key, x, s[1..]);
        InsertPermutation(key, x, s[1..]);
        forall j | 0 <= j < |t|
          ensures !Outranks(key(t[j]), key(s[0]))
        {
          assert t[j] in multiset(t);
          assert t[j] == x || t[j] in s[1..];
        }
      }
    }
  }

  /** The sort's output is ordered by the comparator. */
  lemma {:induction false} SortSorted<T>(key: T -> Key, xs: seq<T>)
    ensures SortedDesc(key, SortDesc(key, xs))
  {
    if xs != [] {
      SortSorted(key, xs[1..]);
      InsertSorted(key, xs[0], SortDesc(key, xs[1..]));
    }
  }

  /** Inserting into a sorted list puts `x` in front of the elements with its key. */
  lemma InsertWithKey<T>(key: T -> Key, x: T, s: seq<T>, k: Key)
    requires SortedDesc(key, s)
    ensures WithKey(key, Insert(key, x, s), k)
         == (if key(x) == k then [x] else []) + WithKey(key, s, k)
  {
    var p := KeyIs(key, k);
    FilterInsert(key, x, s, p);
    var f := Filter(s, p);
    if key(x) == k && f != [] {
      FilterMembers(s, p);
      assert p(f[0]);
    }
  }

  /** Stability: for every key, the elements carrying it keep their input order. */
  lemma {:induction false} SortStable<T>(key: T -> Key, xs: seq<T>, k: Key)
    ensures WithKey(key, SortDesc(key, xs), k) == WithKey(key, xs, k)
  {
    if xs != [] {
      SortStable(key, xs[1..], k);
      SortSorted(key, xs[1..]);
      InsertWithKey(key, xs[0], SortDesc(key, xs[1..]), k);
      FilterAppend([xs[0]], xs[1..], KeyIs(key, k));
      assert Filter([xs[0]], KeyIs(key, k)) == if key(xs[0]) == k then [xs[0]] else [];
      assert xs == [xs[0]] + xs[1..];
    }
  }

  /** Filtering a list with a given head. */
  lemma FilterCons<T>(y: T, t: seq<T>, p: T -> bool)
    ensures Filter([y] + t, p) == (if p(y) then [y] else []) + Filter(t, p)
  {
    assert ([y] + t)[0] == y && ([y] + t)[1..] == t;
  }

  /** Inserting into a sorted list and then filtering is filtering and then inserting (if `x` passes). */
  lemma {:induction false} FilterInsert<T>(key: T -> Key, x: T, s: seq<T>, p: T -> bool)
    requires SortedDesc(key, s)
    ensures Filter(Insert(key, x, s), p)
         == if p(x) then Insert(key, x, Filter(s, p)) else Filter(s, p)
  {
    if s == [] {
      FilterCons(x, [], p);
    } else if Outranks(key(s[0]), key(x)) {
      FilterInsert(key, x, s[1..], p);
      FilterInsertPassed(key, x, s, p);
    } else {
      FilterInsertFront(key, x, s, p);
    }
  }

  /** The inductive step of FilterInsert when `x` moves past the head of `s`. */
  lemma FilterInsertPassed<T>(key: T -> Key, x: T, s: seq<T>, p: T -> bool)
    requires s != [] && Outranks(key(s[0]), key(x))
    requires Filter(Insert(key, x, s[1..]), p)
          == if p(x) then Insert(key, x, Filter(s[1..], p)) else Filter(s[1..], p)
    ensures Filter(Insert(key, x, s), p)
         == if p(x) then Insert(key, x, Filter(s, p)) else Filter(s, p)
  {
    var rest := Filter(s[1..], p);
    var ins := Insert(key, x, s[1..]);
    var head := if p(s[0]) then [s[0]] else [];
    assert Insert(key, x, s) == [s[0]] + ins;
    FilterCons(s[0], ins, p);
    assert Filter(s, p) == head + rest;
    if p(x) {
      if p(s[0]) {
        var t := [s[0]] + rest;
        assert t[0] == s[0] && t[1..] == rest;
        assert Insert(key, x, t) == [s[0]] + Insert(key, x, rest);
      } else {
        assert Filter(s, p) == rest;
      }
    }
  }

  /** The base step of FilterInsert when `x` goes in front of `s`. */
  lemma FilterInsertFront<T>(key: T -> Key, x: T, s: seq<T>, p: T -> bool)
    requires SortedDesc(key, s) && s != [] && !Outranks(key(s[0]), key(x))
    ensures Filter(Insert(key, x, s), p)
         == if p(x) then Insert(key, x, Filter(s, p)) else Filter(s, p)
  {
    FilterCons(x, s, p);
    var f := Filter(s, p);
    if p(x) && f != [] {
      FilterMembers(s, p);
      assert f[0] in s;
      var i :| 0 <= i < |s| && s[i] == f[0];
      assert i == 0 || !Outranks(key(s[i]), key(s[0]));
      assert !Outranks(key(f[0]), key(x));
    }
  }

  /** Filtering a sorted list is the same as sorting the filtered list. */
  lemma {:induction false} SortFilterCommute<T>(key: T -> Key, xs: seq<T>, p: T -> bool)
    ensures Filter(SortDesc(key, xs), p) == SortDesc(key, Filter(xs, p))
  {
    if xs != [] {
      SortFilterCommute(key, xs[1..], p);
      SortSorted(key, xs[1..]);
      FilterInsert(key, xs[0], SortDesc(key, xs[1..]), p);
      FilterAppend([xs[0]], xs[1..], p);
      assert xs == [xs[0]] + xs[1..];
      assert Filter([xs[0]], p) == if p(xs[0]) then [xs[0]] else [];
      if p(xs[0]) {
        assert Filter(xs, p) == [xs[0]] + Filter(xs[1..], p);
        assert Filter(xs, p)[1..] == Filter(xs[1..], p);
      } else {
        assert Filter(xs, p) == Filter(xs[1..], p);
      }
    }
  }

  /** Everything a stable sort promises, in one statement. */
  lemma SortSpec<T>(key: T -> Key, xs: seq<T>)
    ensures SortedDesc(key, SortDesc(key, xs))
    ensures multiset(SortDesc(key, xs)) == multiset(xs)
    ensures forall k :: WithKey(key, SortDesc(key, xs), k) == WithKey(key, xs, k)
  {
    SortSorted(key, xs);
    SortPermutation(key, xs);
    forall k ensures WithKey(key, SortDesc(key, xs), k) == WithKey(key, xs, k) {
      SortStable(key, xs, k);
    }
  }
}

=== FILE: seqs.dfy ===
/** Order-preserving filtering, the model of Java's `stream().filter(...).collect(toList())`. */
module Seqs {

  /** The elements of `s` that satisfy `p`, in their original order. */
  function Filter<T>(s: seq<T>, p: T -> bool): (r: seq<T>)
    ensures |r| <= |s|
  {
    if s == [] then []
    else (if p(s[0]) then [s[0]] else []) + Filter(s[1..], p)
  }

  /** What the filter keeps: exactly the elements of `s` that satisfy `p`. */
  lemma {:induction false} FilterMembers<T>(s: seq<T>, p: T -> bool)
    ensures forall i :: 0 <= i < |Filter(s, p)| ==> Filter(s, p)[i] in s && p(Filter(s, p)[i])
    ensures forall i :: 0 <= i < |s| && p(s[i]) ==> s[i] in Filter(s, p)
  {
    if s != [] {
      FilterMembers(s[1..], p);
      var r := Filter(s, p);
      var head := if p(s[0]) then [s[0]] else [];
      assert r == head + Filter(s[1..], p);
      forall i | 0 <= i < |s| && p(s[i])
        ensures s[i] in r
      {
        if i > 0 {
          assert s[i] == s[1..][i - 1];
        }
      }
    }
  }

  /** `f` on a non-empty list is `f` on all but the last element, then `f` on the last alone. */
  ghost predicate SplitsAtLast<T, U>(f: seq<T> -> seq<U>, s: seq<T>)
  {
    s != [] ==> f(s) == f(s[..|s| - 1]) + f([s[|s| - 1]])
  }

  /** A list function built element by element, from the empty list up, distributes over concatenation. */
  lemma {:induction false} SplitsAtLastAppend<T, U>(f: seq<T> -> seq<U>, a: seq<T>, b: seq<T>)
    requires f([]) == []
    requires forall s :: SplitsAtLast(f, s)
    ensures f(a + b) == f(a) + f(b)
    decreases |b|
  {
    if b == [] {
      assert a + b == a;
    } else {
      var init, last := b[..|b| - 1], [b[|b| - 1]];
      assert (a + b)[..|a + b| - 1] == a + init;
      assert [(a + b)[|a + b| - 1]] == last;
      SplitsAtLastAppend(f, a, init);
      assert SplitsAtLast(f, a + b) && SplitsAtLast(f, b);
      assert (f(a) + f(init)) + f(last) == f(a) + (f(init) + f(last));
    }
  }

  /** Nothing passes: nothing is kept. */
  lemma {:induction false} FilterNone<T>(s: seq<T>, p: T -> bool)
    requires forall i :: 0 <= i < |s| ==> !p(s[i])
    ensures Filter(s, p) == []
  {
    if s != [] {
      assert forall i :: 0 <= i < |s| - 1 ==> s[1..][i] == s[i + 1];
      FilterNone(s[1..], p);
    }
  }

  /** Everything passes: everything is kept. */
  lemma {:induction false} FilterAll<T>(s: seq<T>, p: T -> bool)
    requires forall i :: 0 <= i < |s| ==> p(s[i])
    ensures Filter(s, p) == s
  {
    if s != [] {
      assert forall i :: 0 <= i < |s| - 1 ==> s[1..][i] == s[i + 1];
      FilterAll(s[1..], p);
    }
  }

  /** Filtering distributes over concatenation: this is what "keeps the input order" means. */
  lemma {:induction false} FilterAppend<T>(a: seq<T>, b: seq<T>, p: T -> bool)
    ensures Filter(a + b, p) == Filter(a, p) + Filter(b, p)
  {
    if a == [] {
      assert a + b == b;
    } else {
      var head := if p(a[0]) then [a[0]] else [];
      assert (a + b)[0] == a[0];
      assert (a + b)[1..] == a[1..] + b;
      FilterAppend(a[1..], b, p);
      calc {
        Filter(a + b, p);
        head + Filter(a[1..] + b, p);
        head + (Filter(a[1..], p) + Filter(b, p));
        (head + Filter(a[1..], p)) + Filter(b, p);
        Filter(a, p) + Filter(b, p);
      }
    }
  }

  /** Filtering keeps every occurrence of a selected element and none of the others. */
  lemma {:induction false} FilterCount<T>(s: seq<T>, p: T -> bool, x: T)
    ensures multiset(Filter(s, p))[x] == if p(x) then multiset(s)[x] else 0
  {
    if s != [] {
      FilterCount(s[1..], p, x);
      var head := if p(s[0]) then [s[0]] else [];
      assert Filter(s, p) == head + Filter(s[1..], p);
      assert multiset(Filter(s, p)) == multiset(head) + multiset(Filter(s[1..], p));
      assert s == [s[0]] + s[1..];
      assert multiset(s) == multiset([s[0]]) + multiset(s[1..]);
    }
  }

  /** Filters of two permutations of one another are permutations of one another. */
  lemma FilterPermutation<T>(a: seq<T>, b: seq<T>, p: T -> bool)
    requires multiset(a) == multiset(b)
    ensures multiset(Filter(a, p)) == multiset(Filter(b, p))
  {
    forall x
      ensures multiset(Filter(a, p))[x] == multiset(Filter(b, p))[x]
    {
      FilterCount(a, p, x);
      FilterCount(b, p, x);
    }
    MultisetExt(multiset(Filter(a, p)), multiset(Filter(b, p)));
  }

  lemma MultisetExt<T>(a: multiset<T>, b: multiset<T>)
    requires forall x :: a[x] == b[x]
    ensures a == b
  {
  }
}

=== FILE: user_recommendation.dfy ===
/**
 * Recommending users for an event: `recommendUsersForHackathon`, its
 * deterministic fallback `getBasicRecommendations`, and the last resort
 * `getAtLeastOneUser` of HackathonService.
 *
 * A user list is `seq<Option<UserDoc>>` (a Java list may hold nulls). A
 * user's framework statistics come from `statsOf`, which gives `None` when
 * the statistics, or their usage map, are null or the lookup throws.
 */
module UserRecommendation {
  import opened Wrappers
  import opened JavaStrings
  import opened Seqs
  import opened Ranking
  import opened Users
  import opened Hackathons
  import opened GeminiReply

  type UserList = seq<Option<UserDoc>>
  type Stats = string -> Option<Usage>

  /** Non-null, with an id and a username: the users the fallbacks may return. */
  predicate Usable(u: Option<UserDoc>)
  {
    u.Some? && u.value.id.Some? && u.value.username.Some?
  }

  predicate SomeUsable(users: UserList)
  {
    exists i :: 0 <= i < |users| && Usable(users[i])
  }

  /** `id` is the id of a usable user of `users`. */
  predicate IdOf(users: UserList, id: Option<string>)
  {
    exists i :: 0 <= i < |users| && Usable(users[i]) && users[i].value.id == id
  }

  /** A recommendation for `d` with no matched skills. */
  function Pick(d: UserDoc, score: real): ScoredUser
  {
    ScoredUser(d.id, ShownName(d), score, [])
  }

  /** The score the last resort and the "no statistics" backups get. */
  const LowScore: real := 10.0

  /** The score of the lone user returned when every user is excluded. */
  const ExcludedScore: real := 5.0

  /** `getAtLeastOneUser`: the first usable user, at the low score; nobody if there is none. */
  function LastResort(users: UserList): (r: seq<ScoredUser>)
    ensures |r| <= 1
    ensures r != [] <==> SomeUsable(users)
    ensures r != [] ==> exists i :: 0 <= i < |users| && Usable(users[i]) &&
                          (forall k :: 0 <= k < i ==> !Usable(users[k])) && r == [Pick(users[i].value, LowScore)]
  {
    if users == [] then []
    else if Usable(users[0]) then [Pick(users[0].value, LowScore)]
    else
      var r := LastResort(users[1..]);
      assert forall i :: 1 <= i < |users| ==> users[i] == users[1..][i - 1];
      r
  }

  /** `getAtLeastOneUser`: a first-match loop. */
  method GetAtLeastOneUser(users: UserList) returns (r: seq<ScoredUser>)
    ensures r == LastResort(users)
  {
    var i := 0;
    while i < |users|
      invariant 0 <= i <= |users|
      invariant LastResort(users) == LastResort(users[i..])
    {
      var user := users[i];
      if user.Some? && user.value.id.Some? && user.value.username.Some? {
        return [Pick(user.value, LowScore)];
      }
      assert users[i..][1..] == users[i + 1..];
      i := i + 1;
    }
    r := [];
  }

  // ---------------------------------------------------------------------------
  // Per-user skill matching in the fallback

  /** The keys' normal forms, in the map's iteration order. */
  function NormalizedNames(u: seq<Entry>): (r: seq<string>)
    ensures |r| == |u| && forall k :: 0 <= k < |u| ==> r[k] == Normalize(u[k].name)
  {
    seq(|u|, k requires 0 <= k < |u| => Normalize(u[k].name))
  }

  /** The first position of `x` in `xs`, or -1. */
  function FirstIndex(xs: seq<string>, x: string): (k: int)
    ensures -1 <= k < |xs|
    ensures k == -1 <==> x !in xs
    ensures 0 <= k ==> xs[k] == x && x !in xs[..k]
  {
    if xs == [] then -1
    else if xs[0] == x then 0
    else
      var k := FirstIndex(xs[1..], x);
      assert xs[1..][..k + 1] == xs[1..k + 2];
      if k == -1 then -1 else k + 1
  }

  /** The position of the first key whose normal form is that of `tech`, or -1. */
  function FirstMatch(u: seq<Entry>, tech: string): (k: int)
    ensures -1 <= k < |u|
    ensures k == -1 <==> forall i :: 0 <= i < |u| ==> Normalize(u[i].name) != Normalize(tech)
    ensures 0 <= k ==> Normalize(u[k].name) == Normalize(tech) &&
                       forall i :: 0 <= i < k ==> Normalize(u[i].name) != Normalize(tech)
  {
    var norms := NormalizedNames(u);
    var k := FirstIndex(norms, Normalize(tech));
    assert 0 <= k ==> forall i :: 0 <= i < k ==> norms[..k][i] == norms[i];
    k
  }

  /** The entries matched by the tech-stack entries, one per matching entry, in tech-stack order. */
  function MatchedEntries(techs: seq<string>, u: Usage): (m: seq<Entry>)
    ensures |m| <= |techs|
    ensures forall e :: e in m ==> e in u
  {
    if techs == [] then []
    else
      var m := MatchedEntries(techs[..|techs| - 1], u);
      var k := FirstMatch(u, techs[|techs| - 1]);
      if k < 0 then m else m + [u[k]]
  }

  /** The entries' key spellings, in order. */
  function Names(m: seq<Entry>): (r: seq<string>)
    ensures |r| == |m|
  {
    if m == [] then [] else Names(m[..|m| - 1]) + [m[|m| - 1].name]
  }

  function WeightSum(m: seq<Entry>): int
  {
    if m == [] then 0 else WeightSum(m[..|m| - 1]) + m[|m| - 1].weight
  }

  /** Whether a tech-stack entry matches some key once both are normalised. */
  function MatchesSomeKey(u: Usage): string -> bool
  {
    t => Normalize(t) in NormalizedNames(u)
  }

  /**
   * One matched entry per tech-stack entry that matches a key after
   * normalisation; each is an entry of the user's map (the key in the
   * user's own spelling) whose normal form is that of a tech-stack entry.
   */
  lemma MatchedEntriesSpec(techs: seq<string>, u: Usage)
    ensures |MatchedEntries(techs, u)| == |Filter(techs, MatchesSomeKey(u))|
    ensures forall e :: e in MatchedEntries(techs, u) ==>
              e in u && Normalize(e.name) in seq(|techs|, i requires 0 <= i < |techs| => Normalize(techs[i]))
  {
    MatchedEntriesCount(techs, u);
    MatchedEntriesNormalForms(techs, u);
  }

  lemma {:induction false} MatchedEntriesCount(techs: seq<string>, u: Usage)
    ensures |MatchedEntries(techs, u)| == |Filter(techs, MatchesSomeKey(u))|
  {
    if techs != [] {
      var init, last := techs[..|techs| - 1], techs[|techs| - 1];
      MatchedEntriesCount(init, u);
      assert techs == init + [last];
      FilterAppend(init, [last], MatchesSomeKey(u));
      var k := FirstMatch(u, last);
      assert k >= 0 <==> MatchesSomeKey(u)(last);
    }
  }

  lemma {:induction false} MatchedEntriesNormalForms(techs: seq<string>, u: Usage)
    ensures forall e :: e in MatchedEntries(techs, u) ==>
              e in u && Normalize(e.name) in seq(|techs|, i requires 0 <= i < |techs| => Normalize(techs[i]))
  {
    if techs != [] {
      var init, last := techs[..|techs| - 1], techs[|techs| - 1];
      MatchedEntriesNormalForms(init, u);
      var normTechs := seq(|techs|, i requires 0 <= i < |techs| => Normalize(techs[i]));
      var normInit := seq(|init|, i requires 0 <= i < |init| => Normalize(init[i]));
      assert normTechs == normInit + [Normalize(last)];
    }
  }

  /**
   * Matching works entry by entry: the matches of a concatenation are the
   * matches of its parts, in order, and one entry contributes the first key
   * (in map order) with its normal form, or nothing.
   */
  lemma {:induction false} MatchedEntriesAppend(a: seq<string>, b: seq<string>, u: Usage)
    ensures MatchedEntries(a + b, u) == MatchedEntries(a, u) + MatchedEntries(b, u)
    decreases |b|
  {
    if b == [] {
      assert a + b == a;
    } else {
      var init := b[..|b| - 1];
      assert (a + b)[..|a + b| - 1] == a + init;
      assert (a + b)[|a + b| - 1] == b[|b| - 1];
      MatchedEntriesAppend(a, init, u);
    }
  }

  lemma MatchedEntriesSingle(t: string, u: Usage)
    ensures MatchedEntries([t], u) == if FirstMatch(u, t) < 0 then [] else [u[FirstMatch(u, t)]]
  {
    assert [t][..0] == [];
  }

  /** The inner loop of the fallback: scan the keys for the first whose normal form is `norm`. */
  method FindKey(u: seq<Entry>, norm: string) returns (k: int)
    ensures k == FirstIndex(NormalizedNames(u), norm)
  {
    ghost var norms := NormalizedNames(u);
    var j := 0;
    while j < |u|
      invariant 0 <= j <= |u|
      invariant norm !in norms[..j]
    {
      if Normalize(u[j].name) == norm {
        return j;
      }
      assert norms[..j + 1] == norms[..j] + [norms[j]];
      j := j + 1;
    }
    assert norms[..|u|] == norms;
    k := -1;
  }

  /** One more tech-stack entry adds its first matching entry, if any. */
  lemma MatchedEntriesStep(techs: seq<string>, i: nat, u: Usage)
    requires i < |techs|
    ensures var m := MatchedEntries(techs[..i], u);
            var k := FirstMatch(u, techs[i]);
            MatchedEntries(techs[..i + 1], u) == if k < 0 then m else m + [u[k]]
  {
    assert techs[..i + 1][..i] == techs[..i];
  }

  /** Names and weight sum of one more entry. */
  lemma AppendEntry(m: seq<Entry>, e: Entry)
    ensures Names(m + [e]) == Names(m) + [e.name]
    ensures WeightSum(m + [e]) == WeightSum(m) + e.weight
  {
    assert (m + [e])[..|m|] == m;
  }

  /** The nested loops of the fallback for one user: the matched key spellings and their weight sum. */
  method MatchSkills(techs: seq<string>, u: Usage) returns (skills: seq<string>, raw: int)
    ensures skills == Names(MatchedEntries(techs, u))
    ensures raw == WeightSum(MatchedEntries(techs, u))
  {
    skills, raw := [], 0;
    for i := 0 to |techs|
      invariant skills == Names(MatchedEntries(techs[..i], u))
      invariant raw == WeightSum(MatchedEntries(techs[..i], u))
    {
      var k := FindKey(u, Normalize(techs[i]));
      MatchedEntriesStep(techs, i, u);
      if k >= 0 {
        AppendEntry(MatchedEntries(techs[..i], u), u[k]);
        skills := skills + [u[k].name];
        raw := raw + u[k].weight;
      }
    }
    assert techs[..|techs|] == techs;
  }

  // ---------------------------------------------------------------------------
  // getBasicRecommendations

  /** `Math.min(100, raw / 10)` */
  function Normalized(raw: int): (s: real)
    ensures s <= 100.0
    ensures raw > 0 ==> 0.0 < s
    ensures raw <= 1000 ==> s == raw as real / 10.0
    ensures raw >= 1000 ==> s == 100.0
  {
    if raw as real / 10.0 < 100.0 then raw as real / 10.0 else 100.0
  }

  /** What the fallback loop makes of one user. */
  datatype Verdict =
    | Skipped                       // null, or no id, or no username
    | Recommended(s: ScoredUser)    // matched skills with a positive weight sum
    | Backup(s: ScoredUser)         // no statistics
    | Dropped                       // statistics, but no positive match

  function Assess(user: Option<UserDoc>, techs: seq<string>, statsOf: Stats): (v: Verdict)
    ensures v.Skipped? <==> !Usable(user)
    ensures v.Recommended? ==> v.s.userId == user.value.id && v.s.name == ShownName(user.value) &&
                               0.0 < v.s.score <= 100.0 && v.s.matchedSkills != []
    ensures v.Backup? ==> v.s == Pick(user.value, LowScore)
  {
    if !Usable(user) then Skipped
    else
      var d := user.value;
      var stats := statsOf(d.username.value);
      var hasStats := stats.Some? && stats.value != [];
      var m := if hasStats then MatchedEntries(techs, stats.value) else [];
      var raw := WeightSum(m);
      if m != [] && raw > 0 then Recommended(ScoredUser(d.id, ShownName(d), Normalized(raw), Names(m)))
      else if !hasStats then Backup(Pick(d, LowScore))
      else Dropped
  }

  /**
   * The verdict on a usable user: a backup at the low score without
   * statistics; with statistics, recommended at the normalised weight sum
   * with the matched key spellings exactly when some key matched and the
   * weight sum is positive, else dropped.
   */
  lemma AssessSpec(user: Option<UserDoc>, techs: seq<string>, statsOf: Stats)
    requires Usable(user)
    ensures var d := user.value;
            var stats := statsOf(d.username.value);
            var v := Assess(user, techs, statsOf);
            && (stats.None? || stats.value == [] ==> v == Backup(Pick(d, LowScore)))
            && (stats.Some? && stats.value != [] ==>
                  var m := MatchedEntries(techs, stats.value);
                  v == if m != [] && WeightSum(m) > 0
                       then Recommended(ScoredUser(d.id, ShownName(d), Normalized(WeightSum(m)), Names(m)))
                       else Dropped)
  {
  }

  /** The `recommendations` list, in user order. */
  function Recommendations(users: UserList, techs: seq<string>, statsOf: Stats): (r: seq<ScoredUser>)
    ensures |r| <= |users|
    ensures forall k :: 0 <= k < |r| ==> 0.0 < r[k].score <= 100.0 && r[k].matchedSkills != [] && IdOf(users, r[k].userId)
    ensures r != [] ==> SomeUsable(users)
  {
    if users == [] then []
    else
      var init := users[..|users| - 1];
      var r := Recommendations(init, techs, statsOf);
      assert forall i :: 0 <= i < |init| ==> init[i] == users[i];
      var v := Assess(users[|users| - 1], techs, statsOf);
      if v.Recommended? then r + [v.s] else r
  }

  /** The `usersWithoutStats` list, in user order. */
  function Backups(users: UserList, techs: seq<string>, statsOf: Stats): (r: seq<ScoredUser>)
    ensures |r| <= |users|
    ensures forall k :: 0 <= k < |r| ==> r[k].score == LowScore && r[k].matchedSkills == [] && IdOf(users, r[k].userId)
    ensures r != [] ==> SomeUsable(users)
  {
    if users == [] then []
    else
      var init := users[..|users| - 1];
      var r := Backups(init, techs, statsOf);
      assert forall i :: 0 <= i < |init| ==> init[i] == users[i];
      var v := Assess(users[|users| - 1], techs, statsOf);
      if v.Backup? then r + [v.s] else r
  }

  /**
   * Both lists are built user by user, in user order: a concatenation gives
   * the concatenated lists, and one user gives its verdict's entry when the
   * verdict is of the list's kind, else nothing.
   */
  lemma RecommendationsAppend(a: UserList, b: UserList, techs: seq<string>, statsOf: Stats)
    ensures Recommendations(a + b, techs, statsOf) == Recommendations(a, techs, statsOf) + Recommendations(b, techs, statsOf)
  {
    var f := (users: UserList) => Recommendations(users, techs, statsOf);
    forall users: UserList ensures SplitsAtLast(f, users) {
      if users != [] {
        assert [users[|users| - 1]][..0] == [];
      }
    }
    SplitsAtLastAppend(f, a, b);
  }

  lemma BackupsAppend(a: UserList, b: UserList, techs: seq<string>, statsOf: Stats)
    ensures Backups(a + b, techs, statsOf) == Backups(a, techs, statsOf) + Backups(b, techs, statsOf)
  {
    var f := (users: UserList) => Backups(users, techs, statsOf);
    forall users: UserList ensures SplitsAtLast(f, users) {
      if users != [] {
        assert [users[|users| - 1]][..0] == [];
      }
    }
    SplitsAtLastAppend(f, a, b);
  }

  lemma VerdictListsSingle(user: Option<UserDoc>, techs: seq<string>, statsOf: Stats)
    ensures var v := Assess(user, techs, statsOf);
            && Recommendations([user], techs, statsOf) == (if v.Recommended? then [v.s] else [])
            && Backups([user], techs, statsOf) == (if v.Backup? then [v.s] else [])
  {
    assert [user][..0] == [];
  }

  /** The sort key of both user sorts: score, then number of matched skills. */
  function UserKey(s: ScoredUser): Key
  {
    (s.score, |s.matchedSkills| as real)
  }

  /** The comparator: the higher score first, then more matched skills. */
  lemma UserKeyOrder(a: ScoredUser, b: ScoredUser)
    ensures Outranks(UserKey(a), UserKey(b)) <==>
            a.score > b.score || (a.score == b.score && |a.matchedSkills| > |b.matchedSkills|)
  {
  }

  /** `getBasicRecommendations` */
  function BasicRecommendations(users: UserList, techs: Option<seq<string>>, statsOf: Stats): (r: seq<ScoredUser>)
    ensures |r| <= |users|
  {
    if techs.None? || techs.value == [] then LastResort(users)
    else
      var recs := Recommendations(users, techs.value, statsOf);
      if recs != [] then
        SortPermutation(UserKey, recs);
        SortDesc(UserKey, recs)
      else
        var backups := Backups(users, techs.value, statsOf);
        if backups != [] then [backups[0]] else LastResort(users)
  }

  /** The fallback returns someone exactly when some user has an id and a username. */
  lemma {:induction false} BasicNonEmptyIff(users: UserList, techs: Option<seq<string>>, statsOf: Stats)
    ensures BasicRecommendations(users, techs, statsOf) != [] <==> SomeUsable(users)
  {
    if techs.Some? && techs.value != [] {
      var recs := Recommendations(users, techs.value, statsOf);
      if recs != [] {
        SortPermutation(UserKey, recs);
      }
    }
  }

  /**
   * The fallback's result is sorted by score and then skill count, each
   * score is in (0, 100], and every user it names is a usable user of the list.
   */
  lemma {:induction false} BasicSortedAndBounded(users: UserList, techs: Option<seq<string>>, statsOf: Stats)
    ensures var r := BasicRecommendations(users, techs, statsOf);
            && SortedDesc(UserKey, r)
            && forall k :: 0 <= k < |r| ==> 0.0 < r[k].score <= 100.0 && IdOf(users, r[k].userId)
  {
    var r := BasicRecommendations(users, techs, statsOf);
    if techs.Some? && techs.value != [] {
      var recs := Recommendations(users, techs.value, statsOf);
      if recs != [] {
        SortSpec(UserKey, recs);
        forall k | 0 <= k < |r| ensures 0.0 < r[k].score <= 100.0 && IdOf(users, r[k].userId) {
          assert r[k] in multiset(recs);
        }
      }
    }
  }

  /**
   * Which list the fallback returns: the last resort without a tech stack;
   * else the kept users re-ordered by score and skill count (a stable
   * permutation of them) when there are any; else the first backup alone;
   * else the last resort.
   */
  lemma BasicSpec(users: UserList, techs: Option<seq<string>>, statsOf: Stats)
    ensures var r := BasicRecommendations(users, techs, statsOf);
            && (techs.None? || techs.value == [] ==> r == LastResort(users))
            && (techs.Some? && techs.value != [] ==>
                  var recs := Recommendations(users, techs.value, statsOf);
                  var backups := Backups(users, techs.value, statsOf);
                  && (recs != [] ==> multiset(r) == multiset(recs) && SortedDesc(UserKey, r) &&
                                     forall k :: WithKey(UserKey, r, k) == WithKey(UserKey, recs, k))
                  && (recs == [] && backups != [] ==> r == [backups[0]])
                  && (recs == [] && backups == [] ==> r == LastResort(users)))
  {
    if techs.Some? && techs.value != [] {
      SortSpec(UserKey, Recommendations(users, techs.value, statsOf));
    }
  }

  /** `getBasicRecommendations`: one pass over the users, then the sort and the fallbacks. */
  method GetBasicRecommendations(h: Hackathon, users: UserList, statsOf: Stats) returns (r: seq<ScoredUser>)
    ensures r == BasicRecommendations(users, h.techStacks, statsOf)
  {
    if h.techStacks.None? || h.techStacks.value == [] {
      r := GetAtLeastOneUser(users);
      return;
    }
    var techs := h.techStacks.value;
    var recommendations, usersWithoutStats := [], [];
    for i := 0 to |users|
      invariant recommendations == Recommendations(users[..i], techs, statsOf)
      invariant usersWithoutStats == Backups(users[..i], techs, statsOf)
    {
      assert users[..i + 1][..i] == users[..i];
      var user := users[i];
      if user.Some? && user.value.id.Some? && user.value.username.Some? {
        var d := user.value;
        var stats := statsOf(d.username.value);
        var hasStats := stats.Some? && stats.value != [];
        var matchedSkills, score := [], 0;
        if hasStats {
          matchedSkills, score := MatchSkills(techs, stats.value);
        }
        if matchedSkills != [] && score > 0 {
          recommendations := recommendations + [ScoredUser(d.id, ShownName(d), Normalized(score), matchedSkills)];
        } else if !hasStats {
          usersWithoutStats := usersWithoutStats + [Pick(d, LowScore)];
        }
      }
    }
    assert users[..|users|] == users;
    recommendations := SortDesc(UserKey, recommendations);
    if recommendations == [] {
      if usersWithoutStats != [] {
        return [usersWithoutStats[0]];
      }
      r := GetAtLeastOneUser(users);
      return;
    }
    r := recommendations;
  }
}

/**
 * `recommendUsersForHackathon`: the cascade from the AI reply down to the
 * last resort, with the repository reads and the API reply as inputs.
 */
module UserCascade {
  import opened Wrappers
  import opened Seqs
  import opened Ranking
  import opened Users
  import opened Hackathons
  import opened GeminiReply
  import opened UserRecommendation

  /** Most users sent to the model. */
  const EligibleLimit := 200

  /** Most users the error path looks at. */
  const RecoveryLimit := 10

  /** `stream().limit(n)` */
  function Take<T>(s: seq<T>, n: nat): (r: seq<T>)
    ensures |r| <= n && |r| <= |s| && r == s[..|r|]
    ensures |s| <= n ==> r == s
  {
    if |s| <= n then s else s[..n]
  }

  /** The creator and the already accepted users. */
  function Excluded(h: Hackathon): (r: set<string>)
    ensures h.createdBy.Some? ==> h.createdBy.value in r
    ensures h.acceptedUsers.Some? ==> forall k :: 0 <= k < |h.acceptedUsers.value| ==> h.acceptedUsers.value[k] in r
    ensures forall n :: n in r ==> Some(n) == h.createdBy || (h.acceptedUsers.Some? && n in h.acceptedUsers.value)
  {
    (if h.createdBy.Some? then {h.createdBy.value} else {}) +
    (if h.acceptedUsers.Some? then set k | 0 <= k < |h.acceptedUsers.value| :: h.acceptedUsers.value[k] else {})
  }

  /** Non-null, with a username that is not excluded. */
  function Candidate(excluded: set<string>): Option<UserDoc> -> bool
  {
    (u: Option<UserDoc>) => u.Some? && u.value.username.Some? && u.value.username.value !in excluded
  }

  function Eligible(h: Hackathon, all: UserList): (r: UserList)
    ensures |r| <= EligibleLimit && |r| <= |all|
  {
    Take(Filter(all, Candidate(Excluded(h))), EligibleLimit)
  }

  /** Non-null, with a username. */
  predicate Named(u: Option<UserDoc>)
  {
    u.Some? && u.value.username.Some?
  }

  /** The `Throwable` handler: the last resort among the first ten named users. */
  function ErrorRecovery(all: UserList): (r: seq<ScoredUser>)
    ensures |r| <= 1
    ensures r != [] <==> SomeUsable(Take(Filter(all, Named), RecoveryLimit))
    ensures r != [] ==> r == LastResort(Take(Filter(all, Named), RecoveryLimit))
  {
    var named := Take(Filter(all, Named), RecoveryLimit);
    if named != [] then LastResort(named) else []
  }

  /**
   * The recommendation for a hackathon (`None`: not found) given every
   * user and the model's reply. When every user is excluded and the first
   * is null, the code dereferences null; the handler then runs on the same
   * data.
   */
  function RecommendUsers(hackathon: Option<Hackathon>, all: UserList, reply: string,
                          textOf: string -> Option<string>, parseList: string -> Option<seq<ScoredUser>>,
                          statsOf: Stats): (r: seq<ScoredUser>)
    ensures hackathon.None? || all == [] ==> r == []
    ensures hackathon.Some? && all != [] && Eligible(hackathon.value, all) == [] && all[0].Some? ==>
              r == [Pick(all[0].value, ExcludedScore)]
  {
    if hackathon.None? || all == [] then []
    else
      var h := hackathon.value;
      var eligible := Eligible(h, all);
      if eligible == [] then
        if all[0].Some? then [Pick(all[0].value, ExcludedScore)] else ErrorRecovery(all)
      else
        var ai := Refilled(ParsedReply(Some(reply), textOf, parseList), eligible);
        if ai != [] then SortDesc(UserKey, ai)
        else
          var basic := BasicRecommendations(eligible, h.techStacks, statsOf);
          if basic != [] then basic
          else
            var lastResort := LastResort(eligible);
            if lastResort != [] then lastResort else LastResort(all)
  }

  /** Every eligible user is a non-excluded user of the full list. */
  lemma EligibleMembers(h: Hackathon, all: UserList)
    ensures forall i :: 0 <= i < |Eligible(h, all)| ==>
              Eligible(h, all)[i] in all && Candidate(Excluded(h))(Eligible(h, all)[i])
  {
    FilterMembers(all, Candidate(Excluded(h)));
  }

  /** A usable user among the eligible ones is a usable user of the full list. */
  lemma EligibleIdOf(h: Hackathon, all: UserList, id: Option<string>)
    requires IdOf(Eligible(h, all), id)
    ensures exists i :: 0 <= i < |all| && Usable(all[i]) && all[i].value.id == id &&
                        all[i].value.username.value !in Excluded(h)
  {
    var eligible := Eligible(h, all);
    var j :| 0 <= j < |eligible| && Usable(eligible[j]) && eligible[j].value.id == id;
    EligibleMembers(h, all);
    var i :| 0 <= i < |all| && all[i] == eligible[j];
  }

  /** When the model names nobody and the fallback finds someone, the fallback's answer is the result. */
  lemma FallbackIsBasic(h: Hackathon, all: UserList, reply: string,
                        textOf: string -> Option<string>,
                        parseList: string -> Option<seq<ScoredUser>>, statsOf: Stats)
    requires ParsedReply(Some(reply), textOf, parseList) == []
    requires Eligible(h, all) != []
    requires BasicRecommendations(Eligible(h, all), h.techStacks, statsOf) != []
    ensures RecommendUsers(Some(h), all, reply, textOf, parseList, statsOf) ==
            BasicRecommendations(Eligible(h, all), h.techStacks, statsOf)
  {
    assert all != [];
    assert Refilled(ParsedReply(Some(reply), textOf, parseList), Eligible(h, all)) == [];
  }

  /**
   * When the model returns nobody but some eligible user has an id, every
   * recommended user is one of the eligible users: never the creator and
   * never an accepted user.
   */
  lemma {:induction false} FallbackSkipsExcluded(h: Hackathon, all: UserList, reply: string,
                                                 textOf: string -> Option<string>,
                                                 parseList: string -> Option<seq<ScoredUser>>, statsOf: Stats)
    requires ParsedReply(Some(reply), textOf, parseList) == []
    requires SomeUsable(Eligible(h, all))
    ensures var r := RecommendUsers(Some(h), all, reply, textOf, parseList, statsOf);
            r != [] && forall k :: 0 <= k < |r| ==>
              exists i :: 0 <= i < |all| && Usable(all[i]) && all[i].value.id == r[k].userId &&
                          all[i].value.username.value !in Excluded(h)
  {
    var eligible := Eligible(h, all);
    var basic := BasicRecommendations(eligible, h.techStacks, statsOf);
    BasicNonEmptyIff(eligible, h.techStacks, statsOf);
    BasicSortedAndBounded(eligible, h.techStacks, statsOf);
    FallbackIsBasic(h, all, reply, textOf, parseList, statsOf);
    forall k | 0 <= k < |basic|
      ensures exists i :: 0 <= i < |all| && Usable(all[i]) && all[i].value.id == basic[k].userId &&
                          all[i].value.username.value !in Excluded(h)
    {
      EligibleIdOf(h, all, basic[k].userId);
    }
  }

  /** A usable user of a sub-list is a usable user of the list. */
  lemma UsableInSublist(sub: UserList, all: UserList)
    requires forall i :: 0 <= i < |sub| ==> sub[i] in all
    ensures SomeUsable(sub) ==> SomeUsable(all)
  {
    if SomeUsable(sub) {
      var i :| 0 <= i < |sub| && Usable(sub[i]);
      var j :| 0 <= j < |all| && all[j] == sub[i];
    }
  }

  /**
   * Once some user is eligible, the result is empty exactly when the model
   * returns nobody and no user at all has an id and a username.
   */
  lemma {:induction false} EmptyOnlyWithoutUsableUsers(h: Hackathon, all: UserList, reply: string,
                                                       textOf: string -> Option<string>,
                                                       parseList: string -> Option<seq<ScoredUser>>, statsOf: Stats)
    requires Eligible(h, all) != []
    ensures RecommendUsers(Some(h), all, reply, textOf, parseList, statsOf) == [] <==>
            ParsedReply(Some(reply), textOf, parseList) == [] && !SomeUsable(all)
  {
    var eligible := Eligible(h, all);
    var parsed := ParsedReply(Some(reply), textOf, parseList);
    var r := RecommendUsers(Some(h), all, reply, textOf, parseList, statsOf);
    assert all != [];
    if parsed != [] {
      var ai := Refilled(parsed, eligible);
      SortPermutation(UserKey, ai);
      assert r == SortDesc(UserKey, ai);
    } else {
      var basic := BasicRecommendations(eligible, h.techStacks, statsOf);
      assert r == if basic != [] then basic
                  else if LastResort(eligible) != [] then LastResort(eligible) else LastResort(all);
      BasicNonEmptyIff(eligible, h.techStacks, statsOf);
      EligibleMembers(h, all);
      UsableInSublist(eligible, all);
    }
  }

  /**
   * Over every input: the result is empty exactly when the event is missing,
   * there are no users, every user is excluded, the first is null and none of
   * the first ten named users is usable, or some user is eligible but the
   * model yields nobody and no user at all is usable.
   */
  lemma {:induction false} RecommendEmptyIff(hackathon: Option<Hackathon>, all: UserList, reply: string,
                                             textOf: string -> Option<string>,
                                             parseList: string -> Option<seq<ScoredUser>>, statsOf: Stats)
    ensures RecommendUsers(hackathon, all, reply, textOf, parseList, statsOf) == [] <==>
            || hackathon.None?
            || all == []
            || (Eligible(hackathon.value, all) == [] && all[0].None? &&
                !SomeUsable(Take(Filter(all, Named), RecoveryLimit)))
            || (Eligible(hackathon.value, all) != [] && ParsedReply(Some(reply), textOf, parseList) == [] &&
                !SomeUsable(all))
  {
    if hackathon.Some? && all != [] && Eligible(hackathon.value, all) != [] {
      EmptyOnlyWithoutUsableUsers(hackathon.value, all, reply, textOf, parseList, statsOf);
    }
  }

  /**
   * The null-first branch can lose a usable user: with a null first user,
   * ten named users without an id, then a usable one, all named like the
   * creator, nobody is recommended although a usable user exists.
   */
  lemma NullFirstHidesUsableUser(reply: string, textOf: string -> Option<string>,
                                 parseList: string -> Option<seq<ScoredUser>>, statsOf: Stats)
    ensures var noId := DefaultDoc.(username := Some("x"));
            var all := [None] + seq(RecoveryLimit, i => Some(noId)) + [Some(noId.(id := Some("1")))];
            var h := Hackathon("e", None, None, None, None, Some("x"), None);
            SomeUsable(all) && RecommendUsers(Some(h), all, reply, textOf, parseList, statsOf) == []
  {
    var noId := DefaultDoc.(username := Some("x"));
    var tens := seq(RecoveryLimit, i => Some(noId));
    var all := [None] + tens + [Some(noId.(id := Some("1")))];
    var h := Hackathon("e", None, None, None, None, Some("x"), None);
    assert Usable(all[|all| - 1]);
    assert Excluded(h) == {"x"};
    FilterNone(all, Candidate(Excluded(h)));
    assert all[1..] == tens + [Some(noId.(id := Some("1")))];
    assert Filter(all, Named) == Filter(all[1..], Named);
    FilterAll(all[1..], Named);
    assert Take(Filter(all, Named), RecoveryLimit) == tens;
    assert !SomeUsable(tens);
  }

  /**
   * When the model names someone and some user is eligible, the result is
   * the refilled model list re-ordered by score and skill count: a stable
   * permutation of it.
   */
  lemma AiReplyIsUsed(h: Hackathon, all: UserList, reply: string,
                      textOf: string -> Option<string>,
                      parseList: string -> Option<seq<ScoredUser>>, statsOf: Stats)
    requires Eligible(h, all) != [] && ParsedReply(Some(reply), textOf, parseList) != []
    ensures var r := RecommendUsers(Some(h), all, reply, textOf, parseList, statsOf);
            var ai := Refilled(ParsedReply(Some(reply), textOf, parseList), Eligible(h, all));
            && multiset(r) == multiset(ai) && SortedDesc(UserKey, r)
            && forall k :: WithKey(UserKey, r, k) == WithKey(UserKey, ai, k)
  {
    var ai := Refilled(ParsedReply(Some(reply), textOf, parseList), Eligible(h, all));
    SortSpec(UserKey, ai);
  }

  /**
   * When some user is eligible but neither the model nor the fallback names
   * anyone, the result is the last resort over all users, excluded ones
   * included.
   */
  lemma LastResortBranch(h: Hackathon, all: UserList, reply: string,
                         textOf: string -> Option<string>,
                         parseList: string -> Option<seq<ScoredUser>>, statsOf: Stats)
    requires Eligible(h, all) != []
    requires ParsedReply(Some(reply), textOf, parseList) == []
    requires BasicRecommendations(Eligible(h, all), h.techStacks, statsOf) == []
    ensures RecommendUsers(Some(h), all, reply, textOf, parseList, statsOf) == LastResort(all)
  {
    BasicNonEmptyIff(Eligible(h, all), h.techStacks, statsOf);
    assert all != [];
    assert Refilled(ParsedReply(Some(reply), textOf, parseList), Eligible(h, all)) == [];
  }

  /**
   * The last resort can recommend the event's creator: the only other user
   * has no id, so neither the fallback nor the eligible users yield anyone.
   */
  lemma LastResortMayPickCreator(textOf: string -> Option<string>,
                                 parseList: string -> Option<seq<ScoredUser>>, statsOf: Stats)
    ensures var creator := DefaultDoc.(username := Some("x"), id := Some("1"));
            var all := [Some(DefaultDoc.(username := Some("y"))), Some(creator)];
            var h := Hackathon("e", None, None, None, None, Some("x"), None);
            "x" in Excluded(h) &&
            RecommendUsers(Some(h), all, "[]", textOf, parseList, statsOf) == [Pick(creator, LowScore)]
  {
    var creator := DefaultDoc.(username := Some("x"), id := Some("1"));
    var other := Some(DefaultDoc.(username := Some("y")));
    var all := [other, Some(creator)];
    var h := Hackathon("e", None, None, None, None, Some("x"), None);
    assert Excluded(h) == {"x"};
    assert Eligible(h, all) == [other] by {
      assert all == [other] + [Some(creator)];
      FilterAppend([other], [Some(creator)], Candidate(Excluded(h)));
    }
    assert !SomeUsable([other]);
    LastResortBranch(h, all, "[]", textOf, parseList, statsOf);
    assert !Usable(all[0]) && Usable(all[1]);
  }

  /** When every user is excluded and the first one is null, the error handler's answer is the result. */
  lemma ErrorRecoveryBranch(h: Hackathon, all: UserList, reply: string,
                            textOf: string -> Option<string>,
                            parseList: string -> Option<seq<ScoredUser>>, statsOf: Stats)
    requires all != [] && Eligible(h, all) == [] && all[0].None?
    ensures RecommendUsers(Some(h), all, reply, textOf, parseList, statsOf) == ErrorRecovery(all)
  {
  }

  /** When every user is excluded, a non-null first user is returned alone, at the excluded score. */
  lemma AllExcludedReturnsFirst(h: Hackathon, all: UserList, reply: string,
                                textOf: string -> Option<string>,
                                parseList: string -> Option<seq<ScoredUser>>, statsOf: Stats)
    requires all != [] && Eligible(h, all) == [] && all[0].Some?
    ensures RecommendUsers(Some(h), all, reply, textOf, parseList, statsOf) ==
            [ScoredUser(all[0].value.id, ShownName(all[0].value), ExcludedScore, [])]
  {
  }

  /** Whatever path produced it, the result is ordered by score, then by matched-skill count. */
  lemma {:induction false} RecommendSorted(hackathon: Option<Hackathon>, all: UserList, reply: string,
                                           textOf: string -> Option<string>,
                                           parseList: string -> Option<seq<ScoredUser>>, statsOf: Stats)
    ensures SortedDesc(UserKey, RecommendUsers(hackathon, all, reply, textOf, parseList, statsOf))
  {
    if hackathon.Some? && all != [] {
      var h := hackathon.value;
      var eligible := Eligible(h, all);
      if eligible != [] {
        var ai := Refilled(ParsedReply(Some(reply), textOf, parseList), eligible);
        SortSpec(UserKey, ai);
        BasicSortedAndBounded(eligible, h.techStacks, statsOf);
      }
    }
  }

  /**
   * `recommendUsersForHackathon`: the AI path through `ParseGeminiResponse`,
   * the fallback through `GetBasicRecommendations`, the last resorts
   * through `GetAtLeastOneUser`.
   */
  method RecommendUsersForHackathon(hackathon: Option<Hackathon>, all: UserList, reply: string,
                                    textOf: string -> Option<string>,
                                    parseList: string -> Option<seq<ScoredUser>>, statsOf: Stats)
    returns (r: seq<ScoredUser>)
    ensures r == RecommendUsers(hackathon, all, reply, textOf, parseList, statsOf)
  {
    if hackathon.None? || all == [] {
      return [];
    }
    var h := hackathon.value;
    var eligibleUsers := Eligible(h, all);
    if eligibleUsers == [] {
      if all[0].None? {
        var named := Take(Filter(all, Named), RecoveryLimit);
        if named != [] {
          r := GetAtLeastOneUser(named);
          return;
        }
        return [];
      }
      return [Pick(all[0].value, ExcludedScore)];
    }
    var scoredUsers := ParseGeminiResponse(Some(reply), eligibleUsers, textOf, parseList);
    if scoredUsers != [] {
      return SortDesc(UserKey, scoredUsers);
    }
    var fallbackResults := GetBasicRecommendations(h, eligibleUsers, statsOf);
    if fallbackResults != [] {
      return fallbackResults;
    }
    r := GetAtLeastOneUser(eligibleUsers);
    if r == [] {
      r := GetAtLeastOneUser(all);
    }
  }
}

=== FILE: user_service.dfy ===
/**
 * The account operations of teambondbackend's UserService over a model of the
 * Mongo user collection.
 *
 * The collection is a sequence of documents in insertion order. The
 * repository's derived queries are read off their names:
 * `findByUsername(v)` and `findByDisplayName(v)` select the documents whose
 * field equals `v` (a null argument matches a null field) and fail when more
 * than one document matches; `existsByUsername(v)` asks whether any does;
 * `save(d)` replaces the document with `d`'s id, or inserts `d` (with a new
 * id when it has none).
 */
module UserAccounts {
  import opened Wrappers
  import opened Users

  /** The exceptions the service lets escape. */
  datatype ServiceError =
    | UserAlreadyExists(message: string)
    | InvalidCredentials(message: string)
    // a plain RuntimeException("User not found…")
    | NotFound(message: string)
    // a single-result derived query that matched several documents
    | NonUniqueResult
    // `user.getPassword().equals(…)` on a stored null password
    | NullPassword

  /** How Java's string concatenation prints a possibly-null String. */
  function Show(s: Option<string>): string
  {
    if s.Some? then s.value else "null"
  }

  // ---------------------------------------------------------------------------
  // The repository

  /** The two fields the repository can look a user up by. */
  datatype Field = Username | DisplayName

  function FieldOf(d: UserDoc, f: Field): Option<string>
  {
    match f
    case Username => d.username
    case DisplayName => d.displayName
  }

  /** The positions of the documents whose field `f` equals `v`, ascending. */
  function Matching(users: seq<UserDoc>, f: Field, v: Option<string>): (ix: seq<nat>)
    ensures forall k :: 0 <= k < |ix| ==> ix[k] < |users| && FieldOf(users[ix[k]], f) == v
    ensures forall i :: 0 <= i < |users| && FieldOf(users[i], f) == v ==> i in ix
    ensures forall a, b :: 0 <= a < b < |ix| ==> ix[a] < ix[b]
  {
    if users == [] then []
    else
      var rest := Matching(users[..|users| - 1], f, v);
      if FieldOf(users[|users| - 1], f) == v then rest + [|users| - 1] else rest
  }

  /** Document `k` is the only one whose field `f` equals `v`. */
  predicate OnlyHolder(users: seq<UserDoc>, f: Field, v: Option<string>, k: int)
  {
    && 0 <= k < |users| && FieldOf(users[k], f) == v
    && forall i :: 0 <= i < |users| && i != k ==> FieldOf(users[i], f) != v
  }

  /** A single-result derived query: no match, the one match, or an error. */
  function FindOne(users: seq<UserDoc>, f: Field, v: Option<string>): (r: Result<Option<nat>, ServiceError>)
    ensures r.Success? && r.value.Some? ==>
              r.value.value < |users| && FieldOf(users[r.value.value], f) == v &&
              forall i :: 0 <= i < |users| && FieldOf(users[i], f) == v ==> i == r.value.value
    ensures r == Success(None) <==> forall i :: 0 <= i < |users| ==> FieldOf(users[i], f) != v
    ensures r.Failure? <==>
              exists i, j :: 0 <= i < j < |users| && FieldOf(users[i], f) == v && FieldOf(users[j], f) == v
    ensures r.Failure? ==> r.error == NonUniqueResult
    ensures forall k :: OnlyHolder(users, f, v, k) ==> r == Success(Some(k))
  {
    var ix := Matching(users, f, v);
    if |ix| == 0 then Success(None)
    else if |ix| == 1 then Success(Some(ix[0]))
    else
      assert ix[0] < ix[1];
      Failure(NonUniqueResult)
  }

  /** `existsByUsername(v)`. */
  predicate UsernameTaken(users: seq<UserDoc>, v: Option<string>)
  {
    exists i :: 0 <= i < |users| && users[i].username == v
  }

  /** What the database guarantees: every stored document has an id, and ids are distinct. */
  predicate WellFormed(users: seq<UserDoc>)
  {
    && (forall i :: 0 <= i < |users| ==> users[i].id.Some?)
    && (forall i, j :: 0 <= i < j < |users| ==> users[i].id != users[j].id)
  }

  /** An id no stored document carries, as the id generator provides. */
  predicate IdUnused(users: seq<UserDoc>, id: string)
  {
    forall i :: 0 <= i < |users| ==> users[i].id != Some(id)
  }

  /** No two stored documents share a (non-null) username. */
  predicate UniqueUsernames(users: seq<UserDoc>)
  {
    forall i, j :: 0 <= i < j < |users| && users[i].username.Some? ==> users[i].username != users[j].username
  }

  /** The position of the document with id `id`, if any. */
  function IdIndex(users: seq<UserDoc>, id: string): (r: Option<nat>)
    ensures r.Some? ==> r.value < |users| && users[r.value].id == Some(id)
    ensures r.None? <==> IdUnused(users, id)
  {
    if users == [] then None
    else if users[0].id == Some(id) then Some(0)
    else
      var rest := IdIndex(users[1..], id);
      if rest.Some? then Some(rest.value + 1) else None
  }

  /**
   * `save(d)`: the stored collection afterwards and the saved document. The
   * document with the same id is replaced in place; otherwise `d` is
   * appended, with `freshId` when it has no id.
   */
  function Save(users: seq<UserDoc>, d: UserDoc, freshId: string): (r: (seq<UserDoc>, UserDoc))
    requires WellFormed(users)
    requires d.id.None? ==> IdUnused(users, freshId)
    ensures WellFormed(r.0)
    ensures r.1 == d.(id := r.1.id) && r.1.id == (if d.id.Some? then d.id else Some(freshId))
    ensures |users| <= |r.0| <= |users| + 1
    ensures forall i :: 0 <= i < |users| ==> r.0[i] == (if users[i].id == r.1.id then r.1 else users[i])
    ensures |r.0| == |users| + 1 <==> IdUnused(users, r.1.id.value)
    ensures |r.0| == |users| + 1 ==> r.0[|users|] == r.1
  {
    var saved := if d.id.Some? then d else d.(id := Some(freshId));
    match IdIndex(users, saved.id.value)
    case Some(i) => (users[i := saved], saved)
    case None => (users + [saved], saved)
  }

  // ---------------------------------------------------------------------------
  // The service operations, as functions of the stored collection

  /** `registerUser(user)`: the result and the collection afterwards. */
  function Register(users: seq<UserDoc>, user: UserDoc, freshId: string): (r: (Result<UserDoc, ServiceError>, seq<UserDoc>))
    requires WellFormed(users) && IdUnused(users, freshId)
    ensures WellFormed(r.1)
    ensures r.0.Failure? <==> UsernameTaken(users, user.username)
    ensures r.0.Failure? ==>
              r.0.error == UserAlreadyExists("Username already exists: " + Show(user.username)) && r.1 == users
    ensures r.0.Success? ==> r.0.value == user.(id := r.0.value.id) && r.0.value in r.1
    ensures r.0.Success? ==> (r.1, r.0.value) == Save(users, user, freshId)
  {
    if UsernameTaken(users, user.username) then
      (Failure(UserAlreadyExists("Username already exists: " + Show(user.username))), users)
    else
      var (stored, saved) := Save(users, user, freshId);
      (Success(saved), stored)
  }

  /** `authenticateUser(username, password)`: the stored user, or why not. */
  function Authenticate(users: seq<UserDoc>, username: Option<string>, password: Option<string>): (r: Result<UserDoc, ServiceError>)
    ensures r.Success? ==> r.value in users && r.value.username == username && r.value.password == password
    ensures r == Failure(InvalidCredentials("Invalid username.")) <==> forall i :: 0 <= i < |users| ==> users[i].username != username
    ensures r == Failure(InvalidCredentials("Invalid password.")) ==>
              exists i :: 0 <= i < |users| && users[i].username == username && users[i].password.Some? && users[i].password != password
    ensures UniqueUsernames(users) && username.Some? ==> r != Failure(NonUniqueResult)
    ensures forall k :: OnlyHolder(users, Username, username, k) ==>
              r == if users[k].password.None? then Failure(NullPassword)
                   else if users[k].password == password then Success(users[k])
                   else Failure(InvalidCredentials("Invalid password."))
  {
    match FindOne(users, Username, username)
    case Failure(e) => Failure(e)
    case Success(None) => Failure(InvalidCredentials("Invalid username."))
    case Success(Some(i)) =>
      var u := users[i];
      if u.password.None? then Failure(NullPassword)
      else if u.password != password then Failure(InvalidCredentials("Invalid password."))
      else Success(u)
  }

  /** `getUserByUsername(name)`: by username first, then by display name. */
  function UserByName(users: seq<UserDoc>, name: Option<string>): (r: Result<UserDoc, ServiceError>)
    ensures r.Success? ==> r.value in users && (r.value.username == name || r.value.displayName == name)
    ensures (exists i :: 0 <= i < |users| && users[i].username == name) && UniqueUsernames(users) && name.Some? ==>
              r.Success? && r.value.username == name
    ensures r == Failure(NotFound("User not found: " + Show(name))) <==>
              forall i :: 0 <= i < |users| ==> users[i].username != name && users[i].displayName != name
    ensures forall k :: OnlyHolder(users, Username, name, k) ==> r == Success(users[k])
    ensures (forall i :: 0 <= i < |users| ==> users[i].username != name) ==>
              forall k :: OnlyHolder(users, DisplayName, name, k) ==> r == Success(users[k])
  {
    match FindOne(users, Username, name)
    case Failure(e) => Failure(e)
    case Success(Some(i)) => Success(users[i])
    case Success(None) =>
      match FindOne(users, DisplayName, name)
      case Failure(e) => Failure(e)
      case Success(Some(j)) => Success(users[j])
      case Success(None) => Failure(NotFound("User not found: " + Show(name)))
  }

  /** `a != null ? a : b` */
  function Or(a: Option<string>, b: Option<string>): Option<string>
  {
    if a.Some? then a else b
  }

  /** The sixteen fields `updateUser` copies from a patch, in the order it copies them. */
  datatype ProfileField =
    | UsernameField | DisplayNameField | EmailField | PasswordField | BioField
    | GithubUsernameField | LeetcodeUsernameField | LinkedinUrlField | CodechefUsernameField
    | InstagramUsernameField | TwitterUsernameField | ResumeUrlField | PortfolioUrlField
    | GifUrlField | CoverPhotoUrlField | EmojiField

  function Get(d: UserDoc, f: ProfileField): Option<string>
  {
    match f
    case UsernameField => d.username
    case DisplayNameField => d.displayName
    case EmailField => d.email
    case PasswordField => d.password
    case BioField => d.bio
    case GithubUsernameField => d.githubUsername
    case LeetcodeUsernameField => d.leetcodeUsername
    case LinkedinUrlField => d.linkedinurl
    case CodechefUsernameField => d.codechefUsername
    case InstagramUsernameField => d.instagramusername
    case TwitterUsernameField => d.twitterusername
    case ResumeUrlField => d.resumeUrl
    case PortfolioUrlField => d.portfolioUrl
    case GifUrlField => d.gifUrl
    case CoverPhotoUrlField => d.coverPhotoUrl
    case EmojiField => d.emoji
  }

  /** The document with the sixteen patchable fields blanked out: what a patch never touches. */
  function Fixed(d: UserDoc): UserDoc
  {
    d.(username := None, displayName := None, email := None, password := None, bio := None,
       githubUsername := None, leetcodeUsername := None, linkedinurl := None,
       codechefUsername := None, instagramusername := None, twitterusername := None,
       resumeUrl := None, portfolioUrl := None, gifUrl := None, coverPhotoUrl := None, emoji := None)
  }

  /** The setter chain of `updateUser`: every non-null patchable field of `patch` overwrites. */
  function Merge(stored: UserDoc, patch: UserDoc): (r: UserDoc)
    ensures Fixed(r) == Fixed(stored)
    ensures forall f :: Get(r, f) == if Get(patch, f).Some? then Get(patch, f) else Get(stored, f)
  {
    stored.(username := Or(patch.username, stored.username),
            displayName := Or(patch.displayName, stored.displayName),
            email := Or(patch.email, stored.email),
            password := Or(patch.password, stored.password),
            bio := Or(patch.bio, stored.bio),
            githubUsername := Or(patch.githubUsername, stored.githubUsername),
            leetcodeUsername := Or(patch.leetcodeUsername, stored.leetcodeUsername),
            linkedinurl := Or(patch.linkedinurl, stored.linkedinurl),
            codechefUsername := Or(patch.codechefUsername, stored.codechefUsername),
            instagramusername := Or(patch.instagramusername, stored.instagramusername),
            twitterusername := Or(patch.twitterusername, stored.twitterusername),
            resumeUrl := Or(patch.resumeUrl, stored.resumeUrl),
            portfolioUrl := Or(patch.portfolioUrl, stored.portfolioUrl),
            gifUrl := Or(patch.gifUrl, stored.gifUrl),
            coverPhotoUrl := Or(patch.coverPhotoUrl, stored.coverPhotoUrl),
            emoji := Or(patch.emoji, stored.emoji))
  }

  /**
   * `updateUser(patch, username)`: `Success(None)` is the method's `null`.
   * The merged document keeps the stored id, so saving it replaces the
   * stored one in place.
   */
  function Update(users: seq<UserDoc>, patch: UserDoc, username: Option<string>): (r: (Result<Option<UserDoc>, ServiceError>, seq<UserDoc>))
    requires WellFormed(users)
    ensures WellFormed(r.1)
    ensures r.0 == Success(None) <==> forall i :: 0 <= i < |users| ==> users[i].username != username
    ensures r.0.Success? && r.0.value.None? ==> r.1 == users
    ensures r.0.Failure? ==> r.1 == users
    ensures patch.username.Some? && UsernameTaken(users, patch.username) && UsernameTaken(users, username) ==> r.0.Failure?
    ensures r.0.Success? && r.0.value.Some? ==>
              exists i :: 0 <= i < |users| && users[i].username == username &&
                          r.0.value.value == Merge(users[i], patch) && r.1 == users[i := r.0.value.value]
    ensures patch.username.Some? && UsernameTaken(users, patch.username) ==>
              forall k :: OnlyHolder(users, Username, username, k) ==>
                r == (Failure(UserAlreadyExists("Username already exists: " + patch.username.value)), users)
    ensures patch.username.None? || !UsernameTaken(users, patch.username) ==>
              forall k :: OnlyHolder(users, Username, username, k) ==>
                r == (Success(Some(Merge(users[k], patch))), users[k := Merge(users[k], patch)])
  {
    match FindOne(users, Username, username)
    case Failure(e) => (Failure(e), users)
    case Success(None) => (Success(None), users)
    case Success(Some(i)) =>
      if patch.username.Some? && UsernameTaken(users, patch.username) then
        (Failure(UserAlreadyExists("Username already exists: " + patch.username.value)), users)
      else
        var merged := Merge(users[i], patch);
        (Success(Some(merged)), users[i := merged])
  }

  /** The two key updates: which pair of fields they write. */
  datatype KeyKind = PasswordKey | RecoveryKey

  function WithKey(d: UserDoc, kind: KeyKind, key: Option<string>, iv: Option<string>): UserDoc
  {
    match kind
    case PasswordKey => d.(encryptedPrivateKey := key, privateKeyIv := iv)
    case RecoveryKey => d.(encryptedRecoveryPrivateKey := key, recoveryKeyIv := iv)
  }

  /** `updateEncryptedPrivateKey` / `updateRecoveryPrivateKey`: the collection afterwards, or why not. */
  function SetKey(users: seq<UserDoc>, username: Option<string>, kind: KeyKind, key: Option<string>, iv: Option<string>): (r: Result<seq<UserDoc>, ServiceError>)
    requires WellFormed(users)
    ensures r.Success? ==> WellFormed(r.value) && |r.value| == |users|
    ensures r == Failure(NotFound("User not found")) <==> forall i :: 0 <= i < |users| ==> users[i].username != username
    ensures r.Success? ==>
              exists i :: 0 <= i < |users| && users[i].username == username &&
                          r.value == users[i := WithKey(users[i], kind, key, iv)]
    ensures forall k :: OnlyHolder(users, Username, username, k) ==>
              r == Success(users[k := WithKey(users[k], kind, key, iv)])
  {
    match FindOne(users, Username, username)
    case Failure(e) => Failure(e)
    case Success(None) => Failure(NotFound("User not found"))
    case Success(Some(i)) => Success(users[i := WithKey(users[i], kind, key, iv)])
  }

  // ---------------------------------------------------------------------------
  // Properties relating the operations

  /** A document that is the only one with its username is the one `findByUsername` returns. */
  lemma {:induction false} OnlyMatchIsFound(users: seq<UserDoc>, k: nat, v: Option<string>)
    requires k < |users| && users[k].username == v
    requires forall i :: 0 <= i < |users| && i != k ==> users[i].username != v
    ensures FindOne(users, Username, v) == Success(Some(k))
  {
    assert FieldOf(users[k], Username) == v;
  }

  /** Registering keeps usernames unique. */
  lemma {:induction false} RegisterKeepsUsernamesUnique(users: seq<UserDoc>, user: UserDoc, freshId: string)
    requires WellFormed(users) && IdUnused(users, freshId) && UniqueUsernames(users)
    ensures UniqueUsernames(Register(users, user, freshId).1)
  {
    var (r, after) := Register(users, user, freshId);
    if r.Success? {
      var saved := r.value;
      forall i, j | 0 <= i < j < |after| && after[i].username.Some?
        ensures after[i].username != after[j].username
      {
        assert !UsernameTaken(users, saved.username);
      }
    }
  }

  /** A user just registered with a name and a password can log in with them. */
  lemma {:induction false} RegisterThenAuthenticate(users: seq<UserDoc>, user: UserDoc, freshId: string)
    requires WellFormed(users) && IdUnused(users, freshId)
    requires user.username.Some? && user.password.Some?
    requires Register(users, user, freshId).0.Success?
    ensures Authenticate(Register(users, user, freshId).1, user.username, user.password)
            == Success(Register(users, user, freshId).0.value)
  {
    var (r, after) := Register(users, user, freshId);
    var saved := r.value;
    var k :| 0 <= k < |after| && after[k] == saved;
    forall i | 0 <= i < |after| && i != k
      ensures after[i].username != user.username
    {
      assert !UsernameTaken(users, user.username);
    }
    OnlyMatchIsFound(after, k, user.username);
  }

  /**
   * A patch with no patchable field set (one equal to its own fixed part)
   * changes nothing but re-saves the same document.
   */
  lemma EmptyPatchChangesNothing(stored: UserDoc, patch: UserDoc)
    requires patch == Fixed(patch)
    ensures Merge(stored, patch) == stored
  {
  }

  /** Applying the same patch twice is the same as applying it once. */
  lemma MergeIdempotent(stored: UserDoc, patch: UserDoc)
    ensures Merge(Merge(stored, patch), patch) == Merge(stored, patch)
  {
  }

  /** Renaming oneself to one's own current name is refused. */
  lemma {:induction false} OwnUsernameConflicts(users: seq<UserDoc>, patch: UserDoc, k: nat)
    requires WellFormed(users) && k < |users| && users[k].username.Some?
    requires patch.username == users[k].username
    ensures Update(users, patch, users[k].username).0 ==
            (if FindOne(users, Username, users[k].username).Failure? then Failure(NonUniqueResult)
             else Failure(UserAlreadyExists("Username already exists: " + users[k].username.value)))
    ensures Update(users, patch, users[k].username).1 == users
  {
    assert UsernameTaken(users, patch.username);
    assert FieldOf(users[k], Username) == users[k].username;
  }

  /** A successful update with a new name keeps usernames unique, and the user is then found under it. */
  lemma {:induction false} UpdateThenFind(users: seq<UserDoc>, patch: UserDoc, username: Option<string>)
    requires WellFormed(users) && UniqueUsernames(users)
    requires patch.username.Some?
    requires Update(users, patch, username).0.Success? && Update(users, patch, username).0.value.Some?
    ensures UniqueUsernames(Update(users, patch, username).1)
    ensures UserByName(Update(users, patch, username).1, patch.username)
            == Success(Update(users, patch, username).0.value.value)
  {
    var (r, after) := Update(users, patch, username);
    var merged := r.value.value;
    var k :| 0 <= k < |users| && users[k].username == username && merged == Merge(users[k], patch) && after == users[k := merged];
    assert Get(merged, UsernameField) == patch.username;
    assert !UsernameTaken(users, patch.username);
    forall i | 0 <= i < |after| && i != k
      ensures after[i].username != patch.username
    {
      assert after[i] == users[i];
    }
    OnlyMatchIsFound(after, k, patch.username);
    ReplaceKeepsUnique(users, k, merged);
  }

  /** Replacing one document by one whose username no other document has keeps usernames unique. */
  lemma ReplaceKeepsUnique(users: seq<UserDoc>, k: nat, d: UserDoc)
    requires UniqueUsernames(users) && k < |users|
    requires forall i :: 0 <= i < |users| && i != k ==> users[i].username != d.username
    ensures UniqueUsernames(users[k := d])
  {
    var after := users[k := d];
    forall i, j | 0 <= i < j < |after| && after[i].username.Some?
      ensures after[i].username != after[j].username
    {
      if i != k && j != k {
        assert after[i] == users[i] && after[j] == users[j];
      }
    }
  }

  /** A key update never changes whether a login succeeds, nor whom it returns apart from the keys. */
  lemma {:induction false} SetKeyKeepsLogin(users: seq<UserDoc>, username: Option<string>, kind: KeyKind,
                                            key: Option<string>, iv: Option<string>,
                                            name: Option<string>, password: Option<string>)
    requires WellFormed(users) && SetKey(users, username, kind, key, iv).Success?
    ensures Authenticate(SetKey(users, username, kind, key, iv).value, name, password).Success?
            <==> Authenticate(users, name, password).Success?
  {
    var after := SetKey(users, username, kind, key, iv).value;
    var k := FindOne(users, Username, username).value.value;
    assert after == users[k := WithKey(users[k], kind, key, iv)];
    SameLoginsSameAnswer(users, after, name, password);
  }

  /** Logins depend only on the usernames and passwords, position by position. */
  lemma SameLoginsSameAnswer(a: seq<UserDoc>, b: seq<UserDoc>, name: Option<string>, password: Option<string>)
    requires |a| == |b|
    requires forall i :: 0 <= i < |a| ==> a[i].username == b[i].username && a[i].password == b[i].password
    ensures Authenticate(a, name, password).Success? <==> Authenticate(b, name, password).Success?
  {
    SameNamesSameMatches(a, b, name);
    var found := FindOne(a, Username, name);
    assert FindOne(b, Username, name) == found;
  }

  /** Two collections with the same usernames position by position answer `findByUsername` alike. */
  lemma {:induction false} SameNamesSameMatches(a: seq<UserDoc>, b: seq<UserDoc>, v: Option<string>)
    requires |a| == |b| && forall i :: 0 <= i < |a| ==> a[i].username == b[i].username
    ensures Matching(a, Username, v) == Matching(b, Username, v)
  {
    if a != [] {
      SameNamesSameMatches(a[..|a| - 1], b[..|b| - 1], v);
    }
  }

  // ---------------------------------------------------------------------------
  // The service object

  /** `UserService` with its repository's collection as a field. */
  class UserService {
    var users: seq<UserDoc>

    predicate Valid()
      reads this
    {
      WellFormed(users)
    }

    constructor (stored: seq<UserDoc>)
      requires WellFormed(stored)
      ensures Valid() && users == stored
    {
      users := stored;
    }

    /** `registerUser`: refuse a taken username, otherwise save. */
    method RegisterUser(user: UserDoc, freshId: string) returns (r: Result<UserDoc, ServiceError>)
      requires Valid() && IdUnused(users, freshId)
      modifies this
      ensures Valid()
      ensures (r, users) == Register(old(users), user, freshId)
    {
      if UsernameTaken(users, user.username) {
        return Failure(UserAlreadyExists("Username already exists: " + Show(user.username)));
      }
      var (stored, saved) := Save(users, user, freshId);
      users := stored;
      r := Success(saved);
    }

    /** `authenticateUser`: look the user up, then compare the stored password. */
    method AuthenticateUser(username: Option<string>, password: Option<string>) returns (r: Result<UserDoc, ServiceError>)
      ensures r == Authenticate(users, username, password)
    {
      var found := FindOne(users, Username, username);
      if found.Failure? {
        return Failure(found.error);
      }
      if found.value.None? {
        return Failure(InvalidCredentials("Invalid username."));
      }
      var user := users[found.value.value];
      if user.password.None? {
        return Failure(NullPassword);
      }
      if user.password != password {
        return Failure(InvalidCredentials("Invalid password."));
      }
      r := Success(user);
    }

    /** `getUserByUsername`: the display-name query runs only when the username query finds nobody. */
    method GetUserByUsername(name: Option<string>) returns (r: Result<UserDoc, ServiceError>)
      ensures r == UserByName(users, name)
    {
      var byName := FindOne(users, Username, name);
      if byName.Failure? {
        return Failure(byName.error);
      }
      if byName.value.Some? {
        return Success(users[byName.value.value]);
      }
      var byDisplay := FindOne(users, DisplayName, name);
      if byDisplay.Failure? {
        return Failure(byDisplay.error);
      }
      if byDisplay.value.Some? {
        return Success(users[byDisplay.value.value]);
      }
      r := Failure(NotFound("User not found: " + Show(name)));
    }

    /** `updateUser`: the conflict check, then the setter chain, then the save. */
    method UpdateUser(patch: UserDoc, username: Option<string>) returns (r: Result<Option<UserDoc>, ServiceError>)
      requires Valid()
      modifies this
      ensures Valid()
      ensures (r, users) == Update(old(users), patch, username)
    {
      var found := FindOne(users, Username, username);
      if found.Failure? {
        return Failure(found.error);
      }
      if found.value.None? {
        return Success(None);
      }
      var i := found.value.value;
      var t := users[i];
      if patch.username.Some? {
        if UsernameTaken(users, patch.username) {
          return Failure(UserAlreadyExists("Username already exists: " + patch.username.value));
        }
        t := t.(username := patch.username);
      }
      t := t.(displayName := Or(patch.displayName, t.displayName));
      t := t.(email := Or(patch.email, t.email));
      t := t.(password := Or(patch.password, t.password));
      t := t.(bio := Or(patch.bio, t.bio));
      t := t.(githubUsername := Or(patch.githubUsername, t.githubUsername));
      t := t.(leetcodeUsername := Or(patch.leetcodeUsername, t.leetcodeUsername));
      t := t.(linkedinurl := Or(patch.linkedinurl, t.linkedinurl));
      t := t.(codechefUsername := Or(patch.codechefUsername, t.codechefUsername));
      t := t.(instagramusername := Or(patch.instagramusername, t.instagramusername));
      t := t.(twitterusername := Or(patch.twitterusername, t.twitterusername));
      t := t.(resumeUrl := Or(patch.resumeUrl, t.resumeUrl));
      t := t.(portfolioUrl := Or(patch.portfolioUrl, t.portfolioUrl));
      t := t.(gifUrl := Or(patch.gifUrl, t.gifUrl));
      t := t.(coverPhotoUrl := Or(patch.coverPhotoUrl, t.coverPhotoUrl));
      t := t.(emoji := Or(patch.emoji, t.emoji));
      users := users[i := t];
      r := Success(Some(t));
    }

    /** `updateEncryptedPrivateKey`: set the password-protected key and its IV. */
    method UpdateEncryptedPrivateKey(username: Option<string>, key: Option<string>, iv: Option<string>) returns (r: Outcome<ServiceError>)
      requires Valid()
      modifies this
      ensures Valid()
      ensures var s := SetKey(old(users), username, PasswordKey, key, iv);
              if s.Success? then r == Pass && users == s.value else r == Fail(s.error) && users == old(users)
    {
      var found := FindOne(users, Username, username);
      if found.Failure? {
        return Fail(found.error);
      }
      if found.value.None? {
        return Fail(NotFound("User not found"));
      }
      var i := found.value.value;
      users := users[i := users[i].(encryptedPrivateKey := key, privateKeyIv := iv)];
      r := Pass;
    }

    /** `updateRecoveryPrivateKey`: set the recovery-code-protected key and its IV. */
    method UpdateRecoveryPrivateKey(username: Option<string>, key: Option<string>, iv: Option<string>) returns (r: Outcome<ServiceError>)
      requires Valid()
      modifies this
      ensures Valid()
      ensures var s := SetKey(old(users), username, RecoveryKey, key, iv);
              if s.Success? then r == Pass && users == s.value else r == Fail(s.error) && users == old(users)
    {
      var found := FindOne(users, Username, username);
      if found.Failure? {
        return Fail(found.error);
      }
      if found.value.None? {
        return Fail(NotFound("User not found"));
      }
      var i := found.value.value;
      users := users[i := users[i].(encryptedRecoveryPrivateKey := key, recoveryKeyIv := iv)];
      r := Pass;
    }
  }
}

=== FILE: users.dfy ===
/**
 * The user document (registration/model/User.java) and its one piece of
 * logic, `evaluateProfileCompletion`.
 *
 * `UserDoc` is a user as a value: what the repository stores and what
 * `getAllUsers()` hands to the recommendation code. `User` is the Java
 * object itself, whose method assigns one of its fields in place.
 * Every nullable Java `String` is an `Option<string>`.
 */
module Users {
  import opened Wrappers
  import opened JavaStrings

  datatype UserDoc = UserDoc(
    id: Option<string>,
    username: Option<string>,
    displayName: Option<string>,
    password: Option<string>,
    email: Option<string>,
    githubUsername: Option<string>,
    leetcodeUsername: Option<string>,
    codechefUsername: Option<string>,
    codeforcesUsername: Option<string>,
    bio: Option<string>,
    linkedinurl: Option<string>,
    twitterusername: Option<string>,
    instagramusername: Option<string>,
    portfolioUrl: Option<string>,
    resumeUrl: Option<string>,
    gifUrl: Option<string>,
    coverPhotoUrl: Option<string>,
    emoji: Option<string>,
    githubId: int,
    githubAccessToken: Option<string>,
    githubAvatarUrl: Option<string>,
    isProfileComplete: bool,
    status: Option<string>,
    rsaPublicKey: Option<string>,
    encryptedPrivateKey: Option<string>,
    privateKeyIv: Option<string>,
    geminiAnalysis: Option<string>,
    // Set by UserService's recovery-key update.
    encryptedRecoveryPrivateKey: Option<string>,
    recoveryKeyIv: Option<string>
  )

  /** The status a new user starts with. */
  const NotPaid: string := "not paid"

  /** The field values of a freshly constructed User. */
  const DefaultDoc: UserDoc := UserDoc(
    None, None, None, None, None, None, None, None, None, None, None, None, None, None,
    None, None, None, None, 0, None, None, false, Some(NotPaid), None, None, None, None,
    None, None)

  /** Non-null and not empty after `trim()`. */
  predicate Filled(s: Option<string>)
  {
    s.Some? && !IsBlank(s.value)
  }

  /** The completion rule of `evaluateProfileCompletion`. */
  predicate ProfileComplete(d: UserDoc)
  {
    && Filled(d.username)
    && Filled(d.displayName)
    && Filled(d.email)
    && Filled(d.githubUsername)
    && Filled(d.leetcodeUsername)
    && Filled(d.codechefUsername)
    && Filled(d.codeforcesUsername)
  }

  /** The document after `evaluateProfileCompletion`: the flag recomputed, nothing else touched. */
  function Evaluated(d: UserDoc): (r: UserDoc)
    ensures r.isProfileComplete <==> ProfileComplete(d)
    ensures r.(isProfileComplete := d.isProfileComplete) == d
  {
    d.(isProfileComplete := ProfileComplete(d))
  }

  /** Evaluating twice leaves the same document as evaluating once. */
  lemma EvaluateIdempotent(d: UserDoc)
    ensures Evaluated(Evaluated(d)) == Evaluated(d)
  {
  }

  /** A profile with a missing or blank required field is never complete. */
  lemma {:induction false} BlankFieldMeansIncomplete(d: UserDoc)
    requires d.email.Some? && forall i :: 0 <= i < |d.email.value| ==> IsWhite(d.email.value[i])
    ensures !Evaluated(d).isProfileComplete
  {
    BlankIffAllWhite(d.email.value);
  }

  /** The Java object: every field of the document as a mutable field. */
  class User {
    var id: Option<string>
    var username: Option<string>
    var displayName: Option<string>
    var password: Option<string>
    var email: Option<string>
    var githubUsername: Option<string>
    var leetcodeUsername: Option<string>
    var codechefUsername: Option<string>
    var codeforcesUsername: Option<string>
    var bio: Option<string>
    var linkedinurl: Option<string>
    var twitterusername: Option<string>
    var instagramusername: Option<string>
    var portfolioUrl: Option<string>
    var resumeUrl: Option<string>
    var gifUrl: Option<string>
    var coverPhotoUrl: Option<string>
    var emoji: Option<string>
    var githubId: int
    var githubAccessToken: Option<string>
    var githubAvatarUrl: Option<string>
    var isProfileComplete: bool
    var status: Option<string>
    var rsaPublicKey: Option<string>
    var encryptedPrivateKey: Option<string>
    var privateKeyIv: Option<string>
    var geminiAnalysis: Option<string>
    var encryptedRecoveryPrivateKey: Option<string>
    var recoveryKeyIv: Option<string>

    /** The object's fields as a document. */
    function Doc(): UserDoc
      reads this
    {
      UserDoc(id, username, displayName, password, email, githubUsername, leetcodeUsername,
              codechefUsername, codeforcesUsername, bio, linkedinurl, twitterusername,
              instagramusername, portfolioUrl, resumeUrl, gifUrl, coverPhotoUrl, emoji, githubId,
              githubAccessToken, githubAvatarUrl, isProfileComplete, status, rsaPublicKey,
              encryptedPrivateKey, privateKeyIv, geminiAnalysis, encryptedRecoveryPrivateKey,
              recoveryKeyIv)
    }

    /** `new User()`: references null, `githubId` 0, not complete, status "not paid". */
    constructor ()
      ensures Doc() == DefaultDoc
      ensures !isProfileComplete && status == Some(NotPaid)
    {
      id, username, displayName, password, email := None, None, None, None, None;
      githubUsername, leetcodeUsername, codechefUsername, codeforcesUsername := None, None, None, None;
      bio, linkedinurl, twitterusername, instagramusername := None, None, None, None;
      portfolioUrl, resumeUrl, gifUrl, coverPhotoUrl, emoji := None, None, None, None, None;
      githubId, githubAccessToken, githubAvatarUrl := 0, None, None;
      isProfileComplete, status := false, Some(NotPaid);
      rsaPublicKey, encryptedPrivateKey, privateKeyIv, geminiAnalysis := None, None, None, None;
      encryptedRecoveryPrivateKey, recoveryKeyIv := None, None;
    }

    /**
     * `evaluateProfileCompletion()`: the flag becomes true exactly when the
     * seven identity fields are present and non-blank; it is the only field
     * written.
     */
    method EvaluateProfileCompletion()
      modifies this`isProfileComplete
      ensures Doc() == Evaluated(old(Doc()))
      ensures isProfileComplete <==> ProfileComplete(old(Doc()))
    {
      var complete :=
        Filled(username) && Filled(displayName) && Filled(email) && Filled(githubUsername) &&
        Filled(leetcodeUsername) && Filled(codechefUsername) && Filled(codeforcesUsername);
      isProfileComplete := complete;
    }
  }

  /** A client: a new user is incomplete, and stays so after evaluation. */
  method NewUserIsIncomplete() returns (u: User)
    ensures fresh(u) && u.Doc() == DefaultDoc
  {
    u := new User();
    u.EvaluateProfileCompletion();
  }
}

=== FILE: wrappers.dfy ===
/** Option and Result: Java's nullable references and thrown exceptions, made explicit. */
module Wrappers {

  /** A Java reference that may be null. */
  datatype Option<+T> = None | Some(value: T)

  /** The outcome of a Java call that either returns a value or throws. */
  datatype Result<+R, +E> = Success(value: R) | Failure(error: E)

  /** The outcome of a `void` Java call that either returns or throws. */
  datatype Outcome<+E> = Pass | Fail(error: E)
}
